=== FILE: README.md ===
# Audio measurement: sweep, calibration loop, timer, procedures, sweep configuration

A Dafny model of the sequential logic at the heart of an audio
frequency-response measurement tool. The tool drives a signal generator,
samples the device under test and records its gain over a logarithmic
frequency sweep. Instruments, plotting and the terminal UI are removed. What
remains are four deterministic pieces:

- **The frequency sweep** (`sampling_curve`). `SamplingPlan` covers the
  per-frequency sampling plan: the rate is clipped to the device ceiling, and
  a clipped rate forces 900 samples. That override is sticky. `Sweep` covers
  the per-point lists and the saved dataset. `FolderName` covers the folder
  name given to each frequency and how the debug command decodes it.
- **The level calibration loop** (`config_set_level`), in `SetLevel`. It is a
  state machine over the loop's variables:
  - a failed measurement is retried;
  - the first good reading calibrates the loop gain, once;
  - a reading within tolerance freezes the level offset;
  - any other good reading appends one set of PID terms, moves the amplitude
    and counts an iteration.
- **The stopwatch** `Timer` and its `timer` / `timeit` decorators, in `Timer`.
  This is an idle/running machine with `TimerError` transitions. The clock
  reading is a parameter.
- **The procedure file parser** (`Procedure.from_json` and every step's
  `from_dict`), in `Procedure`, and **the sweep configuration's section map**
  (`SweepConfig`), in `SweepConfig`. Both work on decoded JSON (`Json`).

Measurements, the PID controller's formulas, the logarithmic scale, the dB
formulas and `SweepConfigXML.from_dict` are not part of this model. They come
in as inputs or as function parameters:

- a swept `Point` carries the reading obtained for it;
- `SetLevel.Law` gathers the PID term, output and convergence functions and
  the gain formula;
- `Sweep.Step` takes `gainDb`;
- the procedure parser takes `xml`.

Python truthiness is modelled exactly, once, in `Readings`. `if rms_value:`
rejects a missing reading and also a reading of exactly 0.0. `timer_message
if timer_message else ...` treats "" as absent.

`Dictionary.get_property` is not part of this model either. `Json` assumes a
lookup gives a value only when the key is present, non-null and of the
requested JSON kind. A `List[Dictionary]` lookup (the step list) checks only
that the value is a list. A `List[str]` lookup also requires every item to be a
string.

The calibration loop has no iteration limit and does not clip the controller
output; the model is fed a finite sequence of readings. A failed measurement
is a falsy reading, not a separate error value. The convergence test is
`check_limit_diff`, kept as a parameter that also receives the controller.

## Model

| member | source | states |
|---|---|---|
| SamplingPlan.TrimValue | audio/sampling.py:175-177 | the clipped rate never exceeds the ceiling or the requested value, and is one of the two |
| SamplingPlan.SamplingRate | audio/sampling.py:175-177 | Fs is frequency × multiplier when that fits under Fs_max, and exactly Fs_max otherwise; always Fs ≤ Fs_max |
| SamplingPlan.SampleCountAfter | audio/sampling.py:179-180 | reaching Fs_max forces the sample count to 900; otherwise the configured count is kept |
| SamplingPlan.PlanFor | audio/sampling.py:175-183 | the plan exists iff neither division is by zero; then Fs ≤ Fs_max, the 900 override applies exactly when Fs == Fs_max, ratio × frequency == Fs, and n_periods × Fs == n_samples × frequency |
| SamplingPlan.PeriodsIdentity | audio/sampling.py:182-183 | dividing the sample count by Fs/frequency gives a period count whose product with Fs is n_samples × frequency |
| Sweep.Successful | audio/sampling.py:215-217 | the points kept for the RMS list are all truthy readings, never more than the swept points |
| Sweep.SuccessfulComplete | audio/sampling.py:215-217 | no truthy point is dropped: each occurs among the kept points exactly as often as in the sweep, and a falsy one never does |
| Sweep.SuccessfulAppend | audio/sampling.py:168-217 | the kept points keep sweep order: those of a sweep split in two are those of the first part followed by those of the second |
| Sweep.Step | audio/sampling.py:175-255 | one swept point appends exactly one entry to each of the frequency, fs, oversampling, n_periods and n_samples lists whatever the outcome; it appends one RMS, one dBV and one row only on a truthy reading and leaves them unchanged otherwise; the new configured count is the plan's |
| Sweep.Run | audio/sampling.py:168-255 | the sweep completes exactly when no swept point has a zero frequency or a zero sampling rate; otherwise the ZeroDivisionError aborts it |
| Sweep.StepValid | audio/sampling.py:175-255 | one point keeps the lists aligned, every plan under the ceiling with its identities, the 900 override sticky, and rows matching the RMS and dBV lists |
| Sweep.RunValid | audio/sampling.py:168-255 | over the whole sweep the lists stay aligned (plan lists grow by one per point, the RMS/dBV lists by one per successful point), every plan stays under the ceiling with its identities, and once Fs_max is hit the count is 900 at that point and at every later one |
| Sweep.RunExtends | audio/sampling.py:168-255 | the sweep only appends: every list, the dataset rows included, starts with what it held before the sweep |
| Sweep.RunFrequencies | audio/sampling.py:185 | the frequency list gains exactly the swept frequencies in sweep order, failed points included |
| Sweep.ZippedRows | audio/sampling.py:257-268 | the dataset as written: as long as the shortest of the seven lists (no longer than any, as long as one), row i taking entry i of every list |
| Sweep.StepRow | audio/sampling.py:175-250 | a successful point appends one row after the existing ones, built from its own frequency, RMS value, gain and plan |
| Sweep.RowsAreSuccessfulPoints | audio/sampling.py:175-250 | the intended dataset holds one row per successful point, in order, each with that point's own frequency, RMS value and gain, and a plan for that frequency: Fs is the clipped rate, ratio × frequency == Fs, n_periods × Fs == n_samples × frequency, and 900 samples at the ceiling |
| Sweep.StepRowAt | audio/sampling.py:185-189 | the row a successful point appends carries the frequency and the whole plan (rate, oversampling ratio, period count, sample count) that the same point just recorded at the end of the plan lists |
| Sweep.PositionsOfSuccessful | audio/sampling.py:168-217 | the sweep positions of the successful points lie within the sweep, strictly increase, and position k holds successful point k |
| Sweep.RowsFromPlanLists | audio/sampling.py:168-250 | every row a sweep adds carries the entries of the frequency, fs, oversampling, n_periods and n_samples lists at the sweep position of its own successful point |
| Sweep.StepCounts | audio/sampling.py:179-189 | one point keeps the sample counts determined: each recorded rate is the rate of its frequency, and the recorded and configured counts are 900 once a recorded rate has been Fs_max and the starting count until then |
| Sweep.RunCounts | audio/sampling.py:168-189 | the whole sweep keeps the same determination of the sample counts |
| Sweep.SweepCounts | audio/sampling.py:168-189 | from the configured count, the count recorded at sweep position j, and the count left in the configuration, are 900 exactly when some point swept up to j has the Fs_max rate, and the configured count otherwise |
| Sweep.IntendedRows | audio/sampling.py:168-250 | the intended row k is built from successful point k, found at sweep position j_k with j_k strictly increasing; it carries that point's frequency, RMS and gain and the very plan entries recorded at j_k, its sample count 900 when a point swept up to j_k hit Fs_max and the configured count otherwise |
| Sweep.SweepDataset | audio/sampling.py:168-268 | a full sweep's frequency list is the swept frequencies; the RMS and dBV lists hold each successful point's reading and gain in order; the intended row k is that of successful point k and carries the plan entries recorded at that point's sweep position; both the zipped dataset and the intended one have exactly as many rows as successful points |
| Sweep.ZippedRowsMisaligned | audio/sampling.py:257-268 | a failed point at 100 Hz followed by a reading of 1.0 at 200 Hz gives a zipped row claiming 1.0 at 100 Hz, while the intended row says 200 Hz |
| FolderName.FirstIndex | audio/sampling.py:194-196 | the position of the first occurrence, with no occurrence before it; the length iff there is none |
| FolderName.Encode | audio/sampling.py:194-196 | only the first '.' becomes '_'; a name without '.' is unchanged; length is kept |
| FolderName.Decode | audio/script/cli.py:501 | every '_' becomes '.', nothing else changes, and the result has no '_' |
| FolderName.RoundTrip | audio/sampling.py:194-196 | decoding the encoded name gives the name back if and only if the name has no '_' |
| SetLevel.Initial | audio/sampling.py:563-578 | the loop starts in a state satisfying its invariant: nothing measured, gain_apparato None, not converged |
| SetLevel.Calibrate | audio/sampling.py:596-598 | while gain_apparato is falsy it becomes rms / 0.01 and the controller gain becomes 0.2745 / gain_apparato; once truthy nothing changes; afterwards it is always truthy |
| SetLevel.Measured | audio/sampling.py:596-604 | recording a good reading calibrates the controller gain if it is the first, appends the reading and setpoint − reading, and touches no other controller field |
| SetLevel.Step | audio/sampling.py:594-693 | a falsy reading changes nothing. A good reading appends rms to the process variables, setpoint − rms to the errors and one gain entry; setpoint, tauI, tauD and output zero never change, and the controller gain changes only by the first calibration. Within the limit (tested on the controller holding the new reading), the offset is frozen at the current amplitude, with iteration and term histories untouched. Otherwise the proportional term is computed on the controller holding the new reading and error, the integral on the one holding that term too, the derivative on the one holding both; each is appended; the output is computed on the controller holding all three, appended, and becomes the new amplitude; the iteration grows by 1 |
| SetLevel.Run | audio/sampling.py:580-693 | a converged loop measures no more; a loop that never converges has recorded every good reading it was given |
| Readings.GoodReadings | audio/sampling.py:594 | the readings that pass the truthiness test: all truthy, and each truthy reading kept as often as it occurs |
| Readings.GoodReadingsAppend | audio/sampling.py:580-594 | the filter keeps order: the good readings of two stretches are those of the first followed by those of the second |
| SetLevel.StepValid | audio/sampling.py:594-691 | one pass keeps the loop invariant: histories aligned with the iteration count, errors equal to setpoint − reading, gain fixed by the first good reading, amplitude equal to the last output, offset frozen only at convergence |
| SetLevel.RunValid | audio/sampling.py:580-693 | the loop keeps that invariant throughout, and in the model, where the error history holds values only, running it on all readings equals running it on the good readings alone |
| SetLevel.HistoryIsReadings | audio/sampling.py:580-600 | the process-variable history is the good readings in order, up to the converging one; the loop stops early only by converging |
| SetLevel.CalibratedFromFirstGoodReading | audio/sampling.py:563-598 | from the start, with no good reading the state is untouched; otherwise gain_apparato is the first good reading / 0.01 and the controller gain 0.2745 divided by it, never recomputed |
| Timer.New | audio/utility/timer.py:37-38 | a new timer is idle and holds the given message |
| Timer.Start | audio/utility/timer.py:40-48 | fails with the "running" TimerError exactly when the timer runs; otherwise it runs from now, and a given message replaces the held one while None keeps it |
| Timer.Stop | audio/utility/timer.py:50-62 | fails with the "not running" TimerError exactly when idle; otherwise it reports the held message and now − start, and leaves the timer idle with message "" |
| Timer.TraceSucceedsIffAlternating | audio/utility/timer.py:40-62 | a sequence of starts and stops succeeds iff they alternate beginning with the operation the current state allows; after success the timer runs iff the count is odd (from idle) |
| Timer.AlternatingFromIdle | audio/utility/timer.py:40-62 | alternation from idle means operation i is a start exactly when i is even |
| Timer.ElapsedNonNegative | audio/utility/timer.py:56-58 | with clock readings that never go backwards, every reported elapsed time is ≥ 0 |
| Timer.MessageClearedByStop | audio/utility/timer.py:45-62 | start(None), stop, start(None), stop reports the constructor message first and "" second |
| Timer.DecoratorMessage | audio/utility/timer.py:65-70 | the decorator's message is the given one when non-empty, else the function name |
| Timer.Timed | audio/utility/timer.py:89-99 | a decorated call never raises TimerError, returns the wrapped function's result unchanged, and reports the chosen message and t1 − t0 |
| Procedure.TextFromDict | audio/procedure/__init__.py:31-38 | a text step exactly when "text" is a string, carrying it; otherwise None |
| Procedure.SerialNumberFromDict | audio/procedure/__init__.py:127-135 | a serial-number step exactly when "text" is a string; otherwise None |
| Procedure.SetLevelFromDict | audio/procedure/__init__.py:50-66 | a missing config raises "config is NULL" even if the name is missing too; a non-object config raises; an object config never raises; a step exactly when the name is present and the config parses; otherwise None |
| Procedure.SweepFromDict | audio/procedure/__init__.py:91-116 | raises exactly when config is missing or not an object; a step exactly when name, set_level, y_offset_dB and name_plot are all present and the config parses; otherwise None |
| Procedure.InsertionGainFromDict | audio/procedure/__init__.py:148-157 | a step exactly when both name and set_level are present; otherwise None |
| Procedure.PrintFromDict | audio/procedure/__init__.py:168-176 | a step exactly when variables is a list of strings; otherwise None |
| Procedure.FromType | audio/procedure/__init__.py:234-249 | each of the six type strings goes to its own from_dict; any other string yields a plain step |
| Procedure.ParseEntry | audio/procedure/__init__.py:219-254 | a missing "type" raises naming the index; so does a missing "step" once type is present; an unknown type never fails; a known type whose from_dict gives None raises; an exception raised inside a from_dict propagates unchanged; a dispatch that returns a step yields exactly that step; success only through the dispatch |
| Procedure.ParseSteps | audio/procedure/__init__.py:210-256 | success iff every entry parses, then one step per entry in input order; on failure the error is that of the first failing entry |
| Procedure.ProcedureDict | audio/procedure/__init__.py:199-200 | the procedure object's fields, or no fields when it is missing or not an object |
| Procedure.FromJson | audio/procedure/__init__.py:189-258 | None exactly when the loaded data is None; missing steps raise; otherwise success iff every entry parses, giving the procedure's name and its steps in input order, and a failure is the error of the first entry that fails (e.g. the missing type naming its index) |
| SweepConfig.Get | audio/config/sweep.py:54-68 | a section reads as present exactly when its own key holds an object, and then is that object |
| SweepConfig.GetReadsOnlyItsKey | audio/config/sweep.py:54-68 | two configurations agreeing on a section's key read the same section |
| SweepConfig.Exists | audio/config/sweep.py:43-52 | a section exists iff its key holds an object |
| SweepConfig.Set | audio/config/sweep.py:70-100 | when the section exists, even without override, or on override, it becomes an empty object and is returned; otherwise nothing changes and None is returned; no other key is touched |
| SweepConfig.SetIdempotent | audio/config/sweep.py:70-100 | setting a section twice equals setting it once |
| SweepConfig.SetCommutes | audio/config/sweep.py:70-100 | setting two different sections gives the same configuration in either order |
| SweepConfig.FromFile | audio/config/sweep.py:30-41 | the result is null exactly when the loaded data is null, and otherwise wraps it unchanged |

## Left out

- Instrument I/O is not modelled: USBTMC device search, SCPI generator commands, NI-DAQ acquisition and the `sleep` settling delays. Each measurement is an input instead.
- The Rich live table, progress bars, console messages, matplotlib plots, the CSV and `.offset` file writes, and all of `plot_from_csv` are not modelled. They are presentation and file I/O.
- The 900 override is written into the caller's configuration. If a later division by zero aborts the sweep, the model returns only the error, not the configuration as mutated so far.
- The `max_dB` bookkeeping of the sweep is not modelled. It only feeds a debug panel.
- `LogarithmicScale` is not part of this model. The swept frequencies arrive as the input points.
- `RMS.rms` is not part of this model. Its result is the reading carried by each point or fed to the loop.
- `trim_value` is not part of this model. It is taken to be a clip from above.
- `PID_Controller` is not part of this model. Its terms, output and `check_limit_diff` are `Law` parameters. `check_limit_diff` receives the controller as it stands after the reading and error are added, so whatever it reads of the controller is covered. The error history keeps only the error value, not the `Timed_Value` timestamp.
- SetLevel.Initial: the controller's P, I, D and output histories hold only what the loop appends; whatever the `PID_Controller` constructor seeds them with is not part of this model. The display row (audio/sampling.py:629-631) reads the last P, I and D terms before the loop's first append; if the constructor seeds nothing, that raises IndexError on the first good reading. The model assumes the controller seeds its own term lists and leaves the display out.
- SetLevel.RunValid: the `Timed_Value` timestamps of the error history (audio/sampling.py:604) are dropped, and the controller's terms are assumed not to depend on when an error was recorded. That a failed reading leaves the loop unchanged is therefore a property of the model; a controller that read the timestamps would see the time spent on failed readings.
- The `20·log10(...)` gain formulas are function parameters. All arithmetic is over `real`, so floating-point rounding is not modelled.
- SetLevel.Step: the gain formula (audio/sampling.py:610-612) divides by `voltage_amplitude / (2·sqrt(2))` and raises ZeroDivisionError when the controller output has set the amplitude to exactly 0.0 (with Python floats). The model treats `Law.gainDb` as total, so that exception is not modelled.
- Sweep.Step: the gain formula (audio/sampling.py:225-227) and `transfer_function` divide by the configured `amplitude_peak_to_peak` and raise ZeroDivisionError when it is 0.0. The model treats `gainDb` as total, so that exception is not modelled.
- Number formatting is not modelled: `round(frequency, 5)` turned to text for the folder name, and `float(...)` when decoding it. Encoding and decoding are modelled on the text.
- The calibration loop's sampling rate (audio/sampling.py:483-485) is not modelled. It only feeds the measurement.
- The calibration loop as written runs until it converges. `SetLevel.Run` instead consumes a finite sequence of readings and stops when they run out.
- `Dictionary.get_property` and `Dictionary.from_json` are not part of this model. Their behaviour is assumed as described above.
- The source uses a lookup result in two ways: as an option object tested with `.is_null` and read with `.value` (audio/config/sweep.py:38-39, 46-52), and as a plain value compared with `None` (audio/procedure/__init__.py:35, 56, 193). The model reads both as present or absent.
- A step entry that is not an object (`Dictionary(step)`, audio/procedure/__init__.py:221) is assumed to have no fields, so it fails at the missing "type".
- `dict(config)` accepts a list of key/value pairs in Python. The model treats every non-object config as a conversion error.
- The `procedure_data is None` check (audio/procedure/__init__.py:202) can never fire, because the value was already wrapped. The model lets a "procedure" that is missing, or holds a value that is not an object, read as a dictionary with no fields, which then raises at the missing steps. This assumes `Dictionary(...)` of such a value behaves as an empty dictionary.
- The unused XML element tree built in `from_json` is not modelled.
- The typed section classes (`RigolConfig`, ...) and `__rich_repr__` are not modelled. Sections are raw dictionaries.
- audio/config/exception.py is not modelled. It is an exception hierarchy with message strings and no behaviour.
- The timer's elapsed time is a real number rather than a `timedelta`. Printing the report (`Timer_Message.print`) is not modelled.

## Findings

| source | as written | input that shows it | evidently intended | confidence | as-written member | corrected member |
|---|---|---|---|---|---|---|
| audio/sampling.py:257-268 | the dataset zips `frequency_list`, `fs_list` and the other plan lists, which grow at every point, with `rms_list` and `dBV_list`, which grow only on success; after a failed point every row pairs a frequency with the RMS value of a later one, and the last frequencies are dropped | points (100 Hz, no reading), (200 Hz, 1.0): the only row says 1.0 V was measured at 100 Hz | one row per successful point, in sweep order, built from that point's own frequency, RMS and gain and the plan recorded at its sweep position | high; not executed | Sweep.ZippedRowsMisaligned | Sweep.IntendedRows |

=== FILE: FolderName.dfy ===
/** The per-frequency folder name of the sweep and its decoding.

    `sampling_curve` names each frequency's folder after the rounded
    frequency's text with the first "." turned into "_" (audio/sampling.py);
    the debug command sorts those folders by turning every "_" back into "."
    and reading the number (audio/script/cli.py). Both are modelled on the
    text; number formatting and parsing are not.
 */
module FolderName {

  /** Position of the first `c` in `s`, or |s| when there is none. */
  function FirstIndex(s: string, c: char): (i: nat)
    ensures i <= |s|
    ensures i < |s| ==> s[i] == c
    ensures c !in s[..i]
    ensures i == |s| <==> c !in s
  {
    if s == [] then 0
    else if s[0] == c then 0
    else
      var j := FirstIndex(s[1..], c);
      assert s[..j + 1] == [s[0]] + s[1..][..j];
      j + 1
  }

  /** Replace the first '.' of `s` with '_' (`str.replace(".", "_", 1)`). */
  function Encode(s: string): (r: string)
    ensures |r| == |s|
    ensures '.' !in s ==> r == s
    ensures forall k :: 0 <= k < |s| ==>
      r[k] == if k == FirstIndex(s, '.') then '_' else s[k]
  {
    var i := FirstIndex(s, '.');
    if i == |s| then s else s[..i] + "_" + s[i + 1..]
  }

  /** Replace every '_' of `s` with '.' (`str.replace("_", ".")`). */
  function Decode(s: string): (r: string)
    ensures |r| == |s|
    ensures forall k :: 0 <= k < |s| ==> r[k] == if s[k] == '_' then '.' else s[k]
    ensures '_' !in r
  {
    if s == [] then [] else [if s[0] == '_' then '.' else s[0]] + Decode(s[1..])
  }

  /** Decoding restores exactly the names that had no '_' to begin with;
      any number of '.' is fine, because only the first is encoded and
      every '_' decodes back to '.'. */
  lemma RoundTrip(s: string)
    ensures Decode(Encode(s)) == s <==> '_' !in s
  {
    var d := Decode(Encode(s));
    if '_' in s {
      var k :| 0 <= k < |s| && s[k] == '_';
      assert d[k] == '.';
    } else {
      forall k | 0 <= k < |s|
        ensures d[k] == s[k]
      {
      }
    }
  }
}

=== FILE: Json.dfy ===
/** The JSON values a configuration or procedure file decodes to, and the
    typed property lookup the program performs on them (`Dictionary`,
    `get_property`). A lookup yields a value only when the key is present,
    not null, and of the requested kind; anything else reads as None.
 */
module Json {
  import opened Wrappers

  datatype Value =
    | Null
    | Bool(b: bool)
    | Number(n: real)
    | Str(s: string)
    | Array(items: seq<Value>)
    | Object(fields: map<string, Value>)

  type Dict = map<string, Value>

  /** Wrapping a value as a dictionary: an object is its fields, anything else has none. */
  function AsDict(v: Value): (d: Dict)
    ensures v.Object? ==> d == v.fields
    ensures !v.Object? ==> d == map[]
  {
    if v.Object? then v.fields else map[]
  }

  /** `get_property(key)` without a type: any non-null value. */
  function GetAny(d: Dict, key: string): (r: Option<Value>)
    ensures r.Some? <==> key in d && d[key] != Null
    ensures r.Some? ==> r.value == d[key]
  {
    if key in d && d[key] != Null then Some(d[key]) else None
  }

  /** `get_property(key, str)`. */
  function GetString(d: Dict, key: string): (r: Option<string>)
    ensures r.Some? <==> key in d && d[key].Str?
    ensures r.Some? ==> d[key] == Str(r.value)
  {
    if key in d && d[key].Str? then Some(d[key].s) else None
  }

  /** `get_property(key, Dict)`. */
  function GetObject(d: Dict, key: string): (r: Option<Dict>)
    ensures r.Some? <==> key in d && d[key].Object?
    ensures r.Some? ==> d[key] == Object(r.value)
  {
    if key in d && d[key].Object? then Some(d[key].fields) else None
  }

  /** `get_property(key, List[...])`: the list itself, whatever its items. */
  function GetArray(d: Dict, key: string): (r: Option<seq<Value>>)
    ensures r.Some? <==> key in d && d[key].Array?
    ensures r.Some? ==> d[key] == Array(r.value)
  {
    if key in d && d[key].Array? then Some(d[key].items) else None
  }

  predicate AllStrings(vs: seq<Value>) {
    forall i :: 0 <= i < |vs| ==> vs[i].Str?
  }

  /** The strings of a list whose items are all strings. */
  function Strings(vs: seq<Value>): (ss: seq<string>)
    requires AllStrings(vs)
    ensures |ss| == |vs|
    ensures forall i :: 0 <= i < |vs| ==> vs[i] == Str(ss[i])
  {
    if vs == [] then [] else [vs[0].s] + Strings(vs[1..])
  }

  /** `get_property(key, List[str])`. */
  function GetStringList(d: Dict, key: string): (r: Option<seq<string>>)
    ensures r.Some? <==> key in d && d[key].Array? && AllStrings(d[key].items)
    ensures r.Some? ==> d[key] == Array(seq(|r.value|, i requires 0 <= i < |r.value| => Str(r.value[i])))
  {
    if key in d && d[key].Array? && AllStrings(d[key].items) then Some(Strings(d[key].items)) else None
  }
}

=== FILE: Procedure.dfy ===
/** The procedure file parser of audio/procedure/__init__.py.

    A procedure is a name and a list of steps; each entry of the list has a
    "type" string and a "step" object. Each known type has a `from_dict`
    that returns the step, None when a required field is missing, or raises
    when a sweep configuration is missing. An unknown type yields a plain
    step. Parsing `SweepConfigXML.from_dict` is not part of this model: it
    is the parameter `xml`, which returns the parsed configuration (as a
    dictionary) or None.
 */
module Procedure {
  import opened Wrappers
  import opened Json

  datatype Step =
    | Text(text: string)
    | SetLevel(name: string, config: Dict)
    | Sweep(name: string, setLevel: string, yOffsetDb: string, namePlot: string, config: Dict)
    | SerialNumber(text: string)
    | InsertionGain(name: string, setLevel: string)
    | Print(variables: seq<string>)
    | Generic

  datatype Procedure = Procedure(name: Option<string>, steps: seq<Step>)

  /** The exceptions the parser raises. */
  datatype ParseError =
    | ConfigNull          // "config is NULL"
    | ConfigNotDict       // `dict(config)` of a value that is not an object
    | StepsNull           // "procedure_steps is NULL"
    | TypeNull(idx: nat)  // "procedure_type is NULL at idx: ..."
    | StepNull(idx: nat)  // "step_dictionary is NULL at idx: ..."
    | StepRejected        // bare `raise Exception` for a step that parsed to None

  /** `ProcedureText.from_dict`. */
  function TextFromDict(d: Dict): (r: Option<Step>)
    ensures r.Some? <==> GetString(d, "text").Some?
    ensures r.Some? ==> r.value == Text(GetString(d, "text").value)
  {
    match GetString(d, "text")
    case Some(t) => Some(Text(t))
    case None => None
  }

  /** `ProcedureSerialNumber.from_dict`. */
  function SerialNumberFromDict(d: Dict): (r: Option<Step>)
    ensures r.Some? <==> GetString(d, "text").Some?
    ensures r.Some? ==> r.value == SerialNumber(GetString(d, "text").value)
  {
    match GetString(d, "text")
    case Some(t) => Some(SerialNumber(t))
    case None => None
  }

  /** `ProcedureSetLevel.from_dict`: a missing config raises whatever else
      is missing; then a missing name or unparsable config gives None. */
  function SetLevelFromDict(d: Dict, xml: Dict -> Option<Dict>): (r: Result<Option<Step>, ParseError>)
    ensures GetAny(d, "config").None? ==> r == Failure(ConfigNull)
    ensures GetAny(d, "config").Some? && !d["config"].Object? ==> r == Failure(ConfigNotDict)
    ensures r.Success? <==> GetObject(d, "config").Some?
    ensures r.Success? && r.value.Some? <==>
      && GetObject(d, "config").Some? && GetString(d, "name").Some?
      && xml(GetObject(d, "config").value).Some?
    ensures r.Success? && r.value.Some? ==>
      r.value.value == SetLevel(GetString(d, "name").value, xml(d["config"].fields).value)
  {
    var name := GetString(d, "name");
    match GetAny(d, "config")
    case None => Failure(ConfigNull)
    case Some(c) =>
      if !c.Object? then Failure(ConfigNotDict)
      else match xml(c.fields)
        case None => Success(None)
        case Some(config) =>
          if name.Some? then Success(Some(SetLevel(name.value, config))) else Success(None)
  }

  /** `ProcedureSweep.from_dict`: a config that is missing or not an object
      raises; otherwise a step only when all four strings are present and
      the config parses. */
  function SweepFromDict(d: Dict, xml: Dict -> Option<Dict>): (r: Result<Option<Step>, ParseError>)
    ensures r.Failure? <==> GetObject(d, "config").None?
    ensures r.Failure? ==> r.error == ConfigNull
    ensures r.Success? && r.value.Some? <==>
      && GetObject(d, "config").Some? && xml(GetObject(d, "config").value).Some?
      && GetString(d, "name").Some? && GetString(d, "set_level").Some?
      && GetString(d, "y_offset_dB").Some? && GetString(d, "name_plot").Some?
    ensures r.Success? && r.value.Some? ==>
      r.value.value == Sweep(GetString(d, "name").value, GetString(d, "set_level").value,
                             GetString(d, "y_offset_dB").value, GetString(d, "name_plot").value,
                             xml(GetObject(d, "config").value).value)
  {
    var name := GetString(d, "name");
    var setLevel := GetString(d, "set_level");
    var yOffset := GetString(d, "y_offset_dB");
    var namePlot := GetString(d, "name_plot");
    match GetObject(d, "config")
    case None => Failure(ConfigNull)
    case Some(c) =>
      match xml(c)
      case None => Success(None)
      case Some(config) =>
        if name.Some? && setLevel.Some? && yOffset.Some? && namePlot.Some? then
          Success(Some(Sweep(name.value, setLevel.value, yOffset.value, namePlot.value, config)))
        else Success(None)
  }

  /** `ProcedureInsertionGain.from_dict`. */
  function InsertionGainFromDict(d: Dict): (r: Option<Step>)
    ensures r.Some? <==> GetString(d, "name").Some? && GetString(d, "set_level").Some?
    ensures r.Some? ==> r.value == InsertionGain(GetString(d, "name").value, GetString(d, "set_level").value)
  {
    match (GetString(d, "name"), GetString(d, "set_level"))
    case (Some(n), Some(s)) => Some(InsertionGain(n, s))
    case _ => None
  }

  /** `ProcedurePrint.from_dict`. */
  function PrintFromDict(d: Dict): (r: Option<Step>)
    ensures r.Some? <==> GetStringList(d, "variables").Some?
    ensures r.Some? ==> r.value == Print(GetStringList(d, "variables").value)
  {
    match GetStringList(d, "variables")
    case Some(vs) => Some(Print(vs))
    case None => None
  }

  /** The type strings `from_json` dispatches on. */
  predicate KnownType(t: string) {
    t in {"text", "set-level", "sweep", "serial-number", "insertion-gain", "print"}
  }

  /** Dispatch on the type string; an unknown type is a plain step. */
  function FromType(t: string, d: Dict, xml: Dict -> Option<Dict>): (r: Result<Option<Step>, ParseError>)
    ensures !KnownType(t) ==> r == Success(Some(Generic))
    ensures t == "text" ==> r == Success(TextFromDict(d))
    ensures t == "set-level" ==> r == SetLevelFromDict(d, xml)
    ensures t == "sweep" ==> r == SweepFromDict(d, xml)
    ensures t == "serial-number" ==> r == Success(SerialNumberFromDict(d))
    ensures t == "insertion-gain" ==> r == Success(InsertionGainFromDict(d))
    ensures t == "print" ==> r == Success(PrintFromDict(d))
  {
    if t == "text" then Success(TextFromDict(d))
    else if t == "set-level" then SetLevelFromDict(d, xml)
    else if t == "sweep" then SweepFromDict(d, xml)
    else if t == "serial-number" then Success(SerialNumberFromDict(d))
    else if t == "insertion-gain" then Success(InsertionGainFromDict(d))
    else if t == "print" then Success(PrintFromDict(d))
    else Success(Some(Generic))
  }

  /** One entry of the step list, at position `idx`. */
  function ParseEntry(idx: nat, entry: Value, xml: Dict -> Option<Dict>): (r: Result<Step, ParseError>)
    ensures GetString(AsDict(entry), "type").None? ==> r == Failure(TypeNull(idx))
    ensures GetString(AsDict(entry), "type").Some? && GetObject(AsDict(entry), "step").None? ==>
      r == Failure(StepNull(idx))
    ensures r.Success? ==>
      && GetString(AsDict(entry), "type").Some? && GetObject(AsDict(entry), "step").Some?
      && FromType(GetString(AsDict(entry), "type").value, GetObject(AsDict(entry), "step").value, xml)
         == Success(Some(r.value))
    // an unknown type never fails once "type" and "step" are there
    ensures (&& GetString(AsDict(entry), "type").Some? && GetObject(AsDict(entry), "step").Some?
             && !KnownType(GetString(AsDict(entry), "type").value))
      ==> r == Success(Generic)
    // a known type whose from_dict gives None aborts the parse
    ensures (&& GetString(AsDict(entry), "type").Some? && GetObject(AsDict(entry), "step").Some?
             && FromType(GetString(AsDict(entry), "type").value, GetObject(AsDict(entry), "step").value, xml)
                == Success(None))
      ==> r == Failure(StepRejected)
    // a step returned by the dispatch is the entry's step
    ensures (&& GetString(AsDict(entry), "type").Some? && GetObject(AsDict(entry), "step").Some?
             && FromType(GetString(AsDict(entry), "type").value, GetObject(AsDict(entry), "step").value, xml).Success?
             && FromType(GetString(AsDict(entry), "type").value, GetObject(AsDict(entry), "step").value, xml).value.Some?)
      ==> r == Success(FromType(GetString(AsDict(entry), "type").value, GetObject(AsDict(entry), "step").value, xml).value.value)
    // an exception raised inside a from_dict propagates unchanged
    ensures (&& GetString(AsDict(entry), "type").Some? && GetObject(AsDict(entry), "step").Some?
             && FromType(GetString(AsDict(entry), "type").value, GetObject(AsDict(entry), "step").value, xml).Failure?)
      ==> r == Failure(FromType(GetString(AsDict(entry), "type").value, GetObject(AsDict(entry), "step").value, xml).error)
  {
    var d := AsDict(entry);
    match (GetString(d, "type"), GetObject(d, "step"))
    case (None, _) => Failure(TypeNull(idx))
    case (Some(_), None) => Failure(StepNull(idx))
    case (Some(t), Some(sd)) =>
      match FromType(t, sd, xml)
      case Failure(e) => Failure(e)
      case Success(None) => Failure(StepRejected)
      case Success(Some(step)) => Success(step)
  }

  /** The loop over the step list: either every entry parses and the steps
      come out one per entry in input order, or the first entry that fails
      decides the error. */
  method ParseSteps(entries: seq<Value>, xml: Dict -> Option<Dict>) returns (r: Result<seq<Step>, ParseError>)
    ensures r.Success? <==> forall i :: 0 <= i < |entries| ==> ParseEntry(i, entries[i], xml).Success?
    ensures r.Success? ==>
      && |r.value| == |entries|
      && forall i :: 0 <= i < |entries| ==> ParseEntry(i, entries[i], xml) == Success(r.value[i])
    ensures r.Failure? ==>
      exists k :: 0 <= k < |entries| && ParseEntry(k, entries[k], xml) == Failure(r.error) &&
        forall i :: 0 <= i < k ==> ParseEntry(i, entries[i], xml).Success?
  {
    var steps: seq<Step> := [];
    var idx := 0;
    while idx < |entries|
      invariant 0 <= idx <= |entries|
      invariant |steps| == idx
      invariant forall i :: 0 <= i < idx ==> ParseEntry(i, entries[i], xml) == Success(steps[i])
    {
      match ParseEntry(idx, entries[idx], xml)
      case Failure(e) =>
        return Failure(e);
      case Success(step) =>
        steps := steps + [step];
      idx := idx + 1;
    }
    return Success(steps);
  }

  /** The "procedure" object of the file, wrapped as a dictionary; one that
      is missing or not an object has no fields. */
  function ProcedureDict(data: Dict): (pd: Dict)
    ensures "procedure" in data && data["procedure"].Object? ==> pd == data["procedure"].fields
    ensures !("procedure" in data && data["procedure"].Object?) ==> pd == map[]
  {
    if "procedure" in data then AsDict(data["procedure"]) else map[]
  }

  /** `Procedure.from_json` on the decoded file (`data`, None when the file
      held no dictionary). */
  method FromJson(data: Option<Dict>, xml: Dict -> Option<Dict>) returns (r: Result<Option<Procedure>, ParseError>)
    ensures data.None? <==> r == Success(None)
    ensures data.Some? && GetArray(ProcedureDict(data.value), "steps").None? ==> r == Failure(StepsNull)
    ensures data.Some? && GetArray(ProcedureDict(data.value), "steps").Some? ==>
      var entries := GetArray(ProcedureDict(data.value), "steps").value;
      && (r.Success? <==> forall i :: 0 <= i < |entries| ==> ParseEntry(i, entries[i], xml).Success?)
      && (r.Success? ==>
            && r.value.Some?
            && r.value.value.name == GetString(ProcedureDict(data.value), "name")
            && |r.value.value.steps| == |entries|
            && forall i :: 0 <= i < |entries| ==> ParseEntry(i, entries[i], xml) == Success(r.value.value.steps[i]))
      // the error raised is that of the first entry that fails
      && (r.Failure? ==>
            exists k :: 0 <= k < |entries| && ParseEntry(k, entries[k], xml) == Failure(r.error) &&
              forall i :: 0 <= i < k ==> ParseEntry(i, entries[i], xml).Success?)
  {
    if data.None? {
      return Success(None);
    }
    var pd := ProcedureDict(data.value);
    var name := GetString(pd, "name");
    match GetArray(pd, "steps")
    case None =>
      return Failure(StepsNull);
    case Some(entries) =>
      var steps := ParseSteps(entries, xml);
      match steps
      case Failure(e) =>
        return Failure(e);
      case Success(ss) =>
        return Success(Some(Procedure(name, ss)));
  }
}

=== FILE: Readings.dfy ===
/** Measurement readings as the measurement loops see them: an
    `Optional[float]` RMS value, tested with Python truthiness, so that
    both None and 0.0 count as a failed measurement (audio/sampling.py). */
module Readings {
  import opened Wrappers

  /** Python truthiness of an `Optional[float]`: None and 0.0 are false. */
  predicate Truthy(x: Option<real>) {
    x.Some? && x.value != 0.0
  }

  /** The good readings among `readings`: every truthy one, as often as it
      occurs, and nothing else. */
  function GoodReadings(readings: seq<Option<real>>): (g: seq<Option<real>>)
    ensures |g| <= |readings|
    ensures forall i :: 0 <= i < |g| ==> Truthy(g[i])
    ensures forall x :: multiset(g)[x] == if Truthy(x) then multiset(readings)[x] else 0
  {
    if readings == [] then []
    else
      assert readings == [readings[0]] + readings[1..];
      if Truthy(readings[0]) then [readings[0]] + GoodReadings(readings[1..])
      else GoodReadings(readings[1..])
  }

  /** Filtering keeps the order: the good readings of two stretches of
      readings are those of the first followed by those of the second. */
  lemma {:induction false} GoodReadingsAppend(a: seq<Option<real>>, b: seq<Option<real>>)
    ensures GoodReadings(a + b) == GoodReadings(a) + GoodReadings(b)
    decreases |a|
  {
    if a == [] {
      assert a + b == b;
    } else {
      assert (a + b)[1..] == a[1..] + b;
      GoodReadingsAppend(a[1..], b);
    }
  }

  /** The values carried by readings that are all present. */
  function Values(g: seq<Option<real>>): (vs: seq<real>)
    requires forall i :: 0 <= i < |g| ==> g[i].Some?
    ensures |vs| == |g|
    ensures forall i :: 0 <= i < |g| ==> g[i] == Some(vs[i])
  {
    if g == [] then [] else [g[0].value] + Values(g[1..])
  }
}

=== FILE: SamplingPlan.dfy ===
/** The per-frequency sampling plan of the frequency sweep (audio/sampling.py).

    For every swept frequency the acquisition rate is the requested multiple of
    the frequency, clipped to the acquisition device's ceiling. Hitting the
    ceiling overrides the configured sample count to 900, and because the
    override is written back into the configuration it holds for every later
    frequency too. Oversampling ratio and period count are derived from the
    rate and the count. Arithmetic is over `real`: floating-point rounding is
    not modelled.
 */
module SamplingPlan {
  import opened Wrappers

  /** Sample count forced once the sampling rate reaches the device ceiling. */
  const ClippedSampleCount: int := 900

  /** Sampling parameters read from the configuration. */
  datatype Params = Params(fsMultiplier: real, fsMax: real)

  /** What the sweep computes for one frequency before measuring it. */
  datatype Plan = Plan(
    frequency: real,
    fs: real,
    oversamplingRatio: real,
    nPeriods: real,
    nSamples: int)

  /** The only way planning fails: a Python float division by zero. */
  datatype PlanError = ZeroDivision

  /** `trim_value(value, max_value=...)`: the value, clipped from above. */
  function TrimValue(value: real, maxValue: real): (r: real)
    ensures r <= maxValue && r <= value
    ensures r == value || r == maxValue
  {
    if value > maxValue then maxValue else value
  }

  /** The acquisition rate for a frequency. */
  function SamplingRate(frequency: real, p: Params): (fs: real)
    ensures fs <= p.fsMax
    ensures frequency * p.fsMultiplier <= p.fsMax ==> fs == frequency * p.fsMultiplier
    ensures frequency * p.fsMultiplier > p.fsMax ==> fs == p.fsMax
  {
    TrimValue(frequency * p.fsMultiplier, p.fsMax)
  }

  /** The sample count in force after planning a point sampled at `fs`,
      given the count the configuration held before. */
  function SampleCountAfter(fs: real, p: Params, nSamples: int): (n: int)
    ensures fs == p.fsMax ==> n == ClippedSampleCount
    ensures fs != p.fsMax ==> n == nSamples
  {
    if fs == p.fsMax then ClippedSampleCount else nSamples
  }

  /** The whole plan for one frequency; `nSamples` is the configured count
      before this point. Division by a zero frequency or a zero rate raises. */
  function PlanFor(frequency: real, p: Params, nSamples: int): (r: Result<Plan, PlanError>)
    ensures r.Success? <==> frequency != 0.0 && SamplingRate(frequency, p) != 0.0
    ensures r.Success? ==>
      && r.value.frequency == frequency
      && r.value.fs <= p.fsMax
      && r.value.fs == SamplingRate(frequency, p)
      && (r.value.fs == p.fsMax ==> r.value.nSamples == ClippedSampleCount)
      && (r.value.fs != p.fsMax ==> r.value.nSamples == nSamples)
      && r.value.oversamplingRatio * frequency == r.value.fs
      && r.value.nPeriods * r.value.fs == r.value.nSamples as real * frequency
  {
    var fs := SamplingRate(frequency, p);
    var n := SampleCountAfter(fs, p, nSamples);
    if frequency == 0.0 then Failure(ZeroDivision)
    else
      var ratio := fs / frequency;
      if ratio == 0.0 then Failure(ZeroDivision)
      else
        var periods := n as real / ratio;
        PeriodsIdentity(n as real, fs, frequency);
        Success(Plan(frequency, fs, ratio, periods, n))
  }

  /** `n / (fs / f) * fs == n * f` whenever both divisions are defined. */
  lemma PeriodsIdentity(n: real, fs: real, f: real)
    requires f != 0.0 && fs != 0.0
    ensures fs / f != 0.0
    ensures (n / (fs / f)) * fs == n * f
    ensures (fs / f) * f == fs
  {
  }
}

=== FILE: SetLevel.dfy ===
/** The calibration loop of `config_set_level` (audio/sampling.py).

    The loop drives the signal generator at 1 kHz, measures the RMS level
    and adjusts the generator amplitude with a PID controller, aiming at
    the +4 dBu level, until the controller's `check_limit_diff(error, 0.001)`
    accepts the error of a reading. One pass of the loop is
    `Step`; the sequence of measurements the loop happens to obtain is the
    input of `Run`. The PID controller's term and output formulas, its
    convergence test and the dB formula are not part of this model: they
    are the function parameters gathered in `Law`.
 */
module SetLevel {
  import opened Wrappers
  import opened Readings

  const StartAmplitude: real := 0.01     // generator amplitude of the first pass [V]
  const SetPoint: real := 1.227653       // +4 dBu target RMS level [V]
  const DiffVoltage: real := 0.001       // convergence tolerance [V]
  const KTot: real := 0.2745             // loop gain the calibration aims for
  const InitialControllerGain: real := 1.5
  const TauI: real := 1.0
  const TauD: real := 0.5

  /** What the loop keeps in the PID controller: its parameters and the
      append-only histories it feeds. */
  datatype Pid = Pid(
    setPoint: real,
    controllerGain: real,
    tauI: real,
    tauD: real,
    outputZero: real,
    processVariables: seq<real>,
    errors: seq<real>,
    proportional: seq<real>,
    integral: seq<real>,
    derivative: seq<real>,
    processOutputs: seq<real>)

  /** The loop's variables. `gainApparato` is the apparatus gain found on
      the first good reading; `levelOffset` is set when the loop converges. */
  datatype State = State(
    pid: Pid,
    amplitude: real,
    iteration: nat,
    gainApparato: Option<real>,
    gainDbs: seq<real>,
    found: bool,
    levelOffset: Option<real>)

  /** The controller formulas the loop calls but which live elsewhere:
      `check_limit_diff` (which may consult the controller), the three
      terms, `output_process`, and the gain in dB of a reading at an
      amplitude. */
  datatype Law = Law(
    withinLimit: (Pid, real, real) -> bool,
    proportionalTerm: Pid -> real,
    integralTerm: Pid -> real,
    derivativeTerm: Pid -> real,
    outputProcess: Pid -> real,
    gainDb: (real, real) -> real)

  /** The loop's variables before the first pass: nothing measured, not
      calibrated, not converged. The controller's histories hold only what
      the loop itself appends. */
  function Initial(): (r: State)
    ensures Valid(r)
    ensures r.pid.processVariables == [] && !Truthy(r.gainApparato) && !r.found
  {
    State(
      Pid(SetPoint, InitialControllerGain, TauI, TauD, StartAmplitude, [], [], [], [], [], []),
      StartAmplitude, 0, None, [], false, None)
  }

  /** The one-shot gain calibration: done only while `gain_apparato` is falsy. */
  function Calibrate(s: State, rms: real): (r: State)
    requires rms != 0.0
    ensures !Truthy(s.gainApparato) ==>
      && r.gainApparato == Some(rms / StartAmplitude)
      && r.pid.controllerGain == KTot / (rms / StartAmplitude)
    ensures Truthy(s.gainApparato) ==> r == s
    ensures Truthy(r.gainApparato)
    ensures r.pid == s.pid.(controllerGain := r.pid.controllerGain)
    ensures r == s.(pid := r.pid, gainApparato := r.gainApparato)
  {
    if Truthy(s.gainApparato) then s
    else
      var gain := rms / StartAmplitude;
      s.(gainApparato := Some(gain), pid := s.pid.(controllerGain := KTot / gain))
  }

  /** The controller once a good reading is recorded in it: calibrated if
      this is the first, with the reading and its error appended. */
  function Measured(s: State, rms: real): (pid: Pid)
    requires rms != 0.0
    ensures pid.processVariables == s.pid.processVariables + [rms]
    ensures pid.errors == s.pid.errors + [SetPoint - rms]
    ensures pid.controllerGain ==
      if Truthy(s.gainApparato) then s.pid.controllerGain else KTot / (rms / StartAmplitude)
    ensures && pid.setPoint == s.pid.setPoint && pid.tauI == s.pid.tauI && pid.tauD == s.pid.tauD
            && pid.outputZero == s.pid.outputZero
    ensures && pid.proportional == s.pid.proportional && pid.integral == s.pid.integral
            && pid.derivative == s.pid.derivative && pid.processOutputs == s.pid.processOutputs
  {
    var p := Calibrate(s, rms).pid;
    p.(processVariables := p.processVariables + [rms], errors := p.errors + [SetPoint - rms])
  }

  /** One pass of the loop with the reading it obtained. */
  function Step(s: State, reading: Option<real>, law: Law): (r: State)
    requires !s.found
    // a failed measurement is retried: nothing changes
    ensures !Truthy(reading) ==> r == s
    ensures Truthy(reading) ==>
      var rms := reading.value;
      var err := SetPoint - rms;
      var converged := law.withinLimit(Measured(s, rms), err, DiffVoltage);
      && r.pid.processVariables == s.pid.processVariables + [rms]
      && r.pid.errors == s.pid.errors + [err]
      && r.gainDbs == s.gainDbs + [law.gainDb(rms, s.amplitude)]
      && r.gainApparato == (if Truthy(s.gainApparato) then s.gainApparato else Some(rms / StartAmplitude))
      // the controller's parameters change only by the one-shot calibration
      && r.pid.controllerGain ==
           (if Truthy(s.gainApparato) then s.pid.controllerGain else KTot / (rms / StartAmplitude))
      && r.pid.setPoint == s.pid.setPoint && r.pid.tauI == s.pid.tauI && r.pid.tauD == s.pid.tauD
      && r.pid.outputZero == s.pid.outputZero
      && (converged ==>
            && r.found && r.levelOffset == Some(s.amplitude)
            && r.amplitude == s.amplitude && r.iteration == s.iteration
            && r.pid.proportional == s.pid.proportional && r.pid.integral == s.pid.integral
            && r.pid.derivative == s.pid.derivative && r.pid.processOutputs == s.pid.processOutputs)
      && (!converged ==>
            && !r.found && r.levelOffset == s.levelOffset
            && r.iteration == s.iteration + 1
            // each term is computed on the controller holding the terms before it
            && r.pid.proportional == s.pid.proportional + [law.proportionalTerm(Measured(s, rms))]
            && r.pid.integral == s.pid.integral
                 + [law.integralTerm(Measured(s, rms).(proportional := r.pid.proportional))]
            && r.pid.derivative == s.pid.derivative
                 + [law.derivativeTerm(Measured(s, rms).(proportional := r.pid.proportional,
                                                         integral := r.pid.integral))]
            // the new amplitude is the output computed on all three new terms
            && r.amplitude == law.outputProcess(r.pid.(processOutputs := s.pid.processOutputs))
            && r.pid.processOutputs == s.pid.processOutputs + [r.amplitude])
  {
    if !Truthy(reading) then s
    else
      var rms := reading.value;
      var s1 := Calibrate(s, rms);
      var err := SetPoint - rms;
      var pid1 := Measured(s, rms);
      var gainDbs := s1.gainDbs + [law.gainDb(rms, s1.amplitude)];
      if law.withinLimit(pid1, err, DiffVoltage) then
        s1.(pid := pid1, gainDbs := gainDbs, found := true, levelOffset := Some(s1.amplitude))
      else
        var pid2 := pid1.(proportional := pid1.proportional + [law.proportionalTerm(pid1)]);
        var pid3 := pid2.(integral := pid2.integral + [law.integralTerm(pid2)]);
        var pid4 := pid3.(derivative := pid3.derivative + [law.derivativeTerm(pid3)]);
        var output := law.outputProcess(pid4);
        var pid5 := pid4.(processOutputs := pid4.processOutputs + [output]);
        s1.(pid := pid5, gainDbs := gainDbs, amplitude := output, iteration := s1.iteration + 1)
  }

  /** The loop fed with the readings it obtains, until it converges or the
      readings run out. */
  function Run(s: State, readings: seq<Option<real>>, law: Law): (r: State)
    // a converged loop does not measure again
    ensures s.found ==> r == s
    // a loop that never converges records every good reading
    ensures !r.found ==>
      |r.pid.processVariables| == |s.pid.processVariables| + |GoodReadings(readings)|
    decreases |readings|
  {
    if s.found || readings == [] then s
    else Run(Step(s, readings[0], law), readings[1..], law)
  }

  /** What the loop keeps true from its first pass to its last. */
  ghost predicate Valid(s: State) {
    var pid := s.pid;
    var n := |pid.processVariables|;
    && pid.setPoint == SetPoint
    // one entry per good reading in each measurement history
    && |pid.errors| == n && |s.gainDbs| == n
    // one entry per amplitude update in each term history
    && |pid.proportional| == s.iteration && |pid.integral| == s.iteration
    && |pid.derivative| == s.iteration && |pid.processOutputs| == s.iteration
    // every good reading but a converging one updates the amplitude
    && n == s.iteration + (if s.found then 1 else 0)
    && (forall i :: 0 <= i < n ==> pid.processVariables[i] != 0.0)
    && (forall i :: 0 <= i < n ==> pid.errors[i] == SetPoint - pid.processVariables[i])
    // the gain is calibrated from the first good reading and only from it
    && (n == 0 ==> s.gainApparato == None && pid.controllerGain == InitialControllerGain)
    && (n > 0 ==>
          && s.gainApparato == Some(pid.processVariables[0] / StartAmplitude)
          && pid.controllerGain == KTot / (pid.processVariables[0] / StartAmplitude))
    // the amplitude is the last controller output, the converged one is frozen
    && s.amplitude == (if s.iteration == 0 then StartAmplitude else pid.processOutputs[s.iteration - 1])
    && (s.found <==> s.levelOffset.Some?)
    && (s.found ==> s.levelOffset == Some(s.amplitude))
  }

  lemma StepValid(s: State, reading: Option<real>, law: Law)
    requires Valid(s) && !s.found
    ensures Valid(Step(s, reading, law))
  {
    if Truthy(reading) {
      var r := Step(s, reading, law);
      var rms := reading.value;
      var pvs := s.pid.processVariables;
      assert r.pid.processVariables == pvs + [rms];
      if |pvs| == 0 {
        assert !Truthy(s.gainApparato);
        assert r.pid.processVariables[0] == rms;
      } else {
        assert Truthy(s.gainApparato);
        assert r.pid.processVariables[0] == pvs[0];
      }
    }
  }

  /** The loop keeps `Valid`; and it ignores failed readings altogether:
      running it on all readings is running it on the good ones alone. */
  lemma {:induction false} RunValid(s: State, readings: seq<Option<real>>, law: Law)
    requires Valid(s)
    ensures Valid(Run(s, readings, law))
    ensures Run(s, readings, law) == Run(s, GoodReadings(readings), law)
    decreases |readings|
  {
    if !s.found && readings != [] {
      StepValid(s, readings[0], law);
      RunValid(Step(s, readings[0], law), readings[1..], law);
      if Truthy(readings[0]) {
        var g := GoodReadings(readings);
        assert g == [readings[0]] + GoodReadings(readings[1..]);
        assert g[1..] == GoodReadings(readings[1..]);
      }
    } else if s.found && readings != [] {
      var g := GoodReadings(readings);
      if g != [] {
        assert Run(s, g, law) == s;
      }
    } else {
      assert GoodReadings(readings) == [];
    }
  }

  /** `r` recorded the first `k` readings of `g` after those `s` had, and
      stopped early only by converging. */
  ghost predicate Recorded(s: State, r: State, g: seq<Option<real>>, k: int) {
    && 0 <= k <= |g|
    && (forall i :: 0 <= i < |g| ==> g[i].Some?)
    && r.pid.processVariables == s.pid.processVariables + Values(g[..k])
    && (k < |g| ==> r.found)
    && (!s.found && g != [] ==> k > 0)
  }

  /** Recording one more good reading in front of those `s1` went on to
      record. */
  lemma RecordedCons(s: State, s1: State, r: State, g: seq<Option<real>>, k: int)
    requires g != [] && (forall i :: 0 <= i < |g| ==> g[i].Some?)
    requires s1.pid.processVariables == s.pid.processVariables + [g[0].value]
    requires Recorded(s1, r, g[1..], k)
    ensures Recorded(s, r, g, k + 1)
  {
  }

  /** A loop that does not run has recorded none of `g`. */
  lemma RecordedNothing(s: State, g: seq<Option<real>>)
    requires forall i :: 0 <= i < |g| ==> g[i].Some?
    requires s.found || g == []
    ensures Recorded(s, s, g, 0)
  {
  }

  /** Fed only good readings, the loop records them, in order, in its
      process-variable history until it converges; whatever is left after
      convergence is never measured. */
  lemma {:induction false} HistoryIsReadings(s: State, g: seq<Option<real>>, law: Law)
    requires forall i :: 0 <= i < |g| ==> Truthy(g[i])
    ensures exists k :: Recorded(s, Run(s, g, law), g, k)
    decreases |g|
  {
    var r := Run(s, g, law);
    assert forall i :: 0 <= i < |g| ==> g[i].Some?;
    if s.found || g == [] {
      assert r == s;
      RecordedNothing(s, g);
    } else {
      var s1 := Step(s, g[0], law);
      assert r == Run(s1, g[1..], law);
      HistoryIsReadings(s1, g[1..], law);
      var k :| Recorded(s1, r, g[1..], k);
      assert s1.pid.processVariables == s.pid.processVariables + [g[0].value];
      RecordedCons(s, s1, r, g, k);
      assert Recorded(s, r, g, k + 1);
    }
  }

  /** From the loop's start: the apparatus gain, once known, is the first
      good reading divided by the starting amplitude, and the controller
      gain is rescaled from it; before any good reading both are untouched. */
  lemma CalibratedFromFirstGoodReading(readings: seq<Option<real>>, law: Law)
    ensures var r := Run(Initial(), readings, law);
      var g := GoodReadings(readings);
      && Valid(r)
      && (g == [] ==> r == Initial())
      && (g != [] ==>
            && r.gainApparato == Some(g[0].value / StartAmplitude)
            && r.pid.controllerGain == KTot / (g[0].value / StartAmplitude))
  {
    var g := GoodReadings(readings);
    RunValid(Initial(), readings, law);
    var r := Run(Initial(), g, law);
    if g == [] {
      assert r == Initial();
    } else {
      HistoryIsReadings(Initial(), g, law);
      var k :| Recorded(Initial(), r, g, k);
      assert g[..k][0] == g[0];
      assert r.pid.processVariables[0] == g[0].value;
    }
  }
}

=== FILE: Sweep.dfy ===
/** The frequency-sweep bookkeeping of `sampling_curve` (audio/sampling.py).

    For every frequency of the logarithmic scale the sweep plans the
    acquisition, records the plan in five per-point lists, measures, and, only
    when the measurement is truthy, records the RMS value and its gain in two
    more lists. The measurement (hardware plus FFT) is an input: each swept
    point arrives with the reading it produced. The gain formula
    (`20 * log10(...)`) is the parameter `gainDb`.

    As written, the saved dataset zips all seven lists together, so after a
    failed point the rows pair a frequency with the RMS value of a later one.
    `ZippedRows` models that; the sweep state also carries `rows`, the
    dataset the program evidently intends, one row per successful point built
    from that point's own values.
 */
module Sweep {
  import opened Wrappers
  import opened SamplingPlan
  import opened Readings

  /** A swept frequency together with the RMS reading obtained for it
      (None when the measurement failed). */
  datatype Point = Point(frequency: real, reading: Option<real>)

  /** One row of the saved dataset. */
  datatype Row = Row(
    frequency: real,
    rms: real,
    dBV: real,
    fs: real,
    oversamplingRatio: real,
    nPeriods: real,
    nSamples: int)

  /** The seven lists `sampling_curve` builds, plus the intended dataset. */
  datatype Lists = Lists(
    frequency: seq<real>,
    rms: seq<real>,
    dBV: seq<real>,
    fs: seq<real>,
    oversamplingRatio: seq<real>,
    nPeriods: seq<real>,
    nSamples: seq<int>,
    rows: seq<Row>)

  /** Sweep state between points: the configured sample count (which the
      clip override mutates) and the lists so far. */
  datatype State = State(nSamples: int, lists: Lists)

  function Initial(nSamples: int): State {
    State(nSamples, Lists([], [], [], [], [], [], [], []))
  }

  /** The points whose measurement succeeded: every point with a truthy
      reading, as often as it occurs, and nothing else. */
  function Successful(points: seq<Point>): (s: seq<Point>)
    ensures |s| <= |points|
    ensures forall i :: 0 <= i < |s| ==> Truthy(s[i].reading)
  {
    if points == [] then []
    else if Truthy(points[0].reading) then [points[0]] + Successful(points[1..])
    else Successful(points[1..])
  }

  /** No successful point is dropped: each point with a truthy reading
      occurs among the successful ones as often as in the sweep. */
  lemma {:induction false} SuccessfulComplete(points: seq<Point>)
    ensures forall x ::
      multiset(Successful(points))[x] == (if Truthy(x.reading) then multiset(points)[x] else 0)
    decreases |points|
  {
    if points != [] {
      assert points == [points[0]] + points[1..];
      SuccessfulComplete(points[1..]);
    }
  }

  /** The successful points keep sweep order: those of two stretches of the
      sweep are those of the first followed by those of the second. */
  lemma {:induction false} SuccessfulAppend(a: seq<Point>, b: seq<Point>)
    ensures Successful(a + b) == Successful(a) + Successful(b)
    decreases |a|
  {
    if a == [] {
      assert a + b == b;
    } else {
      assert (a + b)[1..] == a[1..] + b;
      SuccessfulAppend(a[1..], b);
    }
  }

  /** The swept frequencies, in sweep order. */
  function Frequencies(points: seq<Point>): (f: seq<real>)
    ensures |f| == |points|
  {
    if points == [] then [] else [points[0].frequency] + Frequencies(points[1..])
  }

  lemma {:induction false} FrequenciesAt(points: seq<Point>, k: int)
    requires 0 <= k < |points|
    ensures Frequencies(points)[k] == points[k].frequency
    decreases k
  {
    if k > 0 {
      FrequenciesAt(points[1..], k - 1);
    }
  }

  /** Processing one swept point. */
  function Step(s: State, pt: Point, p: Params, gainDb: real -> real): (r: Result<State, PlanError>)
    ensures r.Success? <==> PlanFor(pt.frequency, p, s.nSamples).Success?
    ensures r.Success? ==>
      var plan := PlanFor(pt.frequency, p, s.nSamples).value;
      var l, l' := s.lists, r.value.lists;
      && r.value.nSamples == plan.nSamples
      && l'.frequency == l.frequency + [pt.frequency]
      && l'.fs == l.fs + [plan.fs]
      && l'.oversamplingRatio == l.oversamplingRatio + [plan.oversamplingRatio]
      && l'.nPeriods == l.nPeriods + [plan.nPeriods]
      && l'.nSamples == l.nSamples + [plan.nSamples]
      && (Truthy(pt.reading) ==>
            && l'.rms == l.rms + [pt.reading.value]
            && l'.dBV == l.dBV + [gainDb(pt.reading.value)]
            && |l'.rows| == |l.rows| + 1)
      && (!Truthy(pt.reading) ==> l'.rms == l.rms && l'.dBV == l.dBV && l'.rows == l.rows)
  {
    match PlanFor(pt.frequency, p, s.nSamples)
    case Failure(e) => Failure(e)
    case Success(plan) =>
      var l := s.lists;
      var l1 := l.(
        frequency := l.frequency + [pt.frequency],
        fs := l.fs + [plan.fs],
        oversamplingRatio := l.oversamplingRatio + [plan.oversamplingRatio],
        nPeriods := l.nPeriods + [plan.nPeriods],
        nSamples := l.nSamples + [plan.nSamples]);
      var l2 :=
        if Truthy(pt.reading) then
          var v := pt.reading.value;
          l1.(rms := l1.rms + [v], dBV := l1.dBV + [gainDb(v)],
              rows := l1.rows + [Row(pt.frequency, v, gainDb(v), plan.fs,
                                     plan.oversamplingRatio, plan.nPeriods, plan.nSamples)])
        else l1;
      Success(State(plan.nSamples, l2))
  }

  /** The sweep loop over the remaining points; a division by zero aborts it. */
  function Run(s: State, points: seq<Point>, p: Params, gainDb: real -> real): (r: Result<State, PlanError>)
    // the sweep aborts exactly when some point's plan divides by zero
    ensures r.Success? <==>
      forall i :: 0 <= i < |points| ==> points[i].frequency != 0.0 && SamplingRate(points[i].frequency, p) != 0.0
    decreases |points|
  {
    if points == [] then Success(s)
    else match Step(s, points[0], p, gainDb)
      case Failure(e) => Failure(e)
      case Success(s1) => Run(s1, points[1..], p, gainDb)
  }

  /** The dataset as written: the seven lists zipped, which stops at the
      shortest of them. */
  function ZippedRows(l: Lists): (rows: seq<Row>)
    // as long as the shortest list: no longer than any, as long as one
    ensures |rows| <= |l.frequency| && |rows| <= |l.rms| && |rows| <= |l.dBV| && |rows| <= |l.fs|
    ensures |rows| <= |l.oversamplingRatio| && |rows| <= |l.nPeriods| && |rows| <= |l.nSamples|
    ensures || |rows| == |l.frequency| || |rows| == |l.rms| || |rows| == |l.dBV| || |rows| == |l.fs|
            || |rows| == |l.oversamplingRatio| || |rows| == |l.nPeriods| || |rows| == |l.nSamples|
    // row i takes position i of every list
    ensures forall i :: 0 <= i < |rows| ==>
      rows[i] == Row(l.frequency[i], l.rms[i], l.dBV[i], l.fs[i], l.oversamplingRatio[i],
                     l.nPeriods[i], l.nSamples[i])
  {
    var n := Min(Min(Min(|l.frequency|, |l.rms|), Min(|l.dBV|, |l.fs|)),
                 Min(Min(|l.oversamplingRatio|, |l.nPeriods|), |l.nSamples|));
    seq(n, i requires 0 <= i < n =>
      Row(l.frequency[i], l.rms[i], l.dBV[i], l.fs[i], l.oversamplingRatio[i], l.nPeriods[i], l.nSamples[i]))
  }

  function Min(a: int, b: int): int {
    if a <= b then a else b
  }

  /** The five plan lists have one entry per swept point; the RMS, gain
      and row lists have one entry per successful point. */
  ghost predicate Aligned(l: Lists) {
    && |l.fs| == |l.frequency| && |l.oversamplingRatio| == |l.frequency|
    && |l.nPeriods| == |l.frequency| && |l.nSamples| == |l.frequency|
    && |l.dBV| == |l.rms| && |l.rows| == |l.rms| && |l.rms| <= |l.frequency|
  }

  /** Every recorded plan respects the device ceiling and the plan identities. */
  ghost predicate PlansSound(l: Lists, p: Params)
    requires Aligned(l)
  {
    forall i :: 0 <= i < |l.fs| ==>
      && l.fs[i] <= p.fsMax
      && l.oversamplingRatio[i] * l.frequency[i] == l.fs[i]
      && l.nPeriods[i] * l.fs[i] == l.nSamples[i] as real * l.frequency[i]
  }

  /** The 900 override is sticky: once the ceiling is hit, the configured
      count and every later recorded count are 900. */
  ghost predicate Sticky(s: State, p: Params)
    requires Aligned(s.lists)
  {
    var l := s.lists;
    && (forall i :: 0 <= i < |l.fs| && l.fs[i] == p.fsMax ==> s.nSamples == ClippedSampleCount)
    && (forall i, j :: 0 <= i <= j < |l.fs| && l.fs[i] == p.fsMax ==> l.nSamples[j] == ClippedSampleCount)
  }

  /** Each dataset row repeats the RMS and gain lists at the same position. */
  ghost predicate RowsMatch(l: Lists)
    requires Aligned(l)
  {
    forall i :: 0 <= i < |l.rows| ==> l.rows[i].rms == l.rms[i] && l.rows[i].dBV == l.dBV[i]
  }

  /** What holds of the lists after any prefix of the sweep. */
  ghost predicate Valid(s: State, p: Params) {
    Aligned(s.lists) && PlansSound(s.lists, p) && Sticky(s, p) && RowsMatch(s.lists)
  }

  lemma StepValid(s: State, pt: Point, p: Params, gainDb: real -> real)
    requires Valid(s, p)
    requires Step(s, pt, p, gainDb).Success?
    ensures Valid(Step(s, pt, p, gainDb).value, p)
  {
    var plan := PlanFor(pt.frequency, p, s.nSamples).value;
    var s' := Step(s, pt, p, gainDb).value;
    var l, l' := s.lists, s'.lists;
    var n := |l.fs|;
    assert Aligned(l');
    forall i | 0 <= i < |l'.fs|
      ensures l'.fs[i] <= p.fsMax
      ensures l'.oversamplingRatio[i] * l'.frequency[i] == l'.fs[i]
      ensures l'.nPeriods[i] * l'.fs[i] == l'.nSamples[i] as real * l'.frequency[i]
    {
      if i < n {
        assert l'.fs[i] == l.fs[i] && l'.frequency[i] == l.frequency[i];
        assert l'.oversamplingRatio[i] == l.oversamplingRatio[i];
        assert l'.nPeriods[i] == l.nPeriods[i] && l'.nSamples[i] == l.nSamples[i];
      }
    }
    assert PlansSound(l', p);
    forall i | 0 <= i < |l'.fs| && l'.fs[i] == p.fsMax
      ensures s'.nSamples == ClippedSampleCount
    {
      if i < n {
        assert l.fs[i] == p.fsMax;
      }
    }
    forall i, j | 0 <= i <= j < |l'.fs| && l'.fs[i] == p.fsMax
      ensures l'.nSamples[j] == ClippedSampleCount
    {
      if j < n {
        assert l'.nSamples[j] == l.nSamples[j];
        assert l.fs[i] == p.fsMax;
      } else if i < n {
        assert l.fs[i] == p.fsMax;
      }
    }
    assert Sticky(s', p);
    assert RowsMatch(l');
  }

  /** Running the sweep keeps every list aligned as `Valid` describes, the
      plan lists grow by one per point whatever the outcome, and the RMS,
      gain and row lists grow by one per successful point. */
  lemma {:induction false} RunValid(s: State, points: seq<Point>, p: Params, gainDb: real -> real)
    requires Valid(s, p)
    requires Run(s, points, p, gainDb).Success?
    ensures var s' := Run(s, points, p, gainDb).value;
      && Valid(s', p)
      && |s'.lists.frequency| == |s.lists.frequency| + |points|
      && |s'.lists.rms| == |s.lists.rms| + |Successful(points)|
    decreases |points|
  {
    if points != [] {
      StepValid(s, points[0], p, gainDb);
      RunValid(Step(s, points[0], p, gainDb).value, points[1..], p, gainDb);
    }
  }

  /** `b` starts with `a`. */
  ghost predicate IsPrefix<T>(a: seq<T>, b: seq<T>) {
    |a| <= |b| && b[..|a|] == a
  }

  lemma PrefixTransitive<T>(a: seq<T>, b: seq<T>, c: seq<T>)
    requires IsPrefix(a, b) && IsPrefix(b, c)
    ensures IsPrefix(a, c)
  {
  }

  /** Every list of `l'` starts with the matching list of `l`. */
  ghost predicate Extends(l: Lists, l': Lists) {
    && IsPrefix(l.frequency, l'.frequency) && IsPrefix(l.fs, l'.fs)
    && IsPrefix(l.oversamplingRatio, l'.oversamplingRatio) && IsPrefix(l.nPeriods, l'.nPeriods)
    && IsPrefix(l.nSamples, l'.nSamples) && IsPrefix(l.rms, l'.rms)
    && IsPrefix(l.dBV, l'.dBV) && IsPrefix(l.rows, l'.rows)
  }

  lemma ExtendsTransitive(l: Lists, l1: Lists, l': Lists)
    requires Extends(l, l1) && Extends(l1, l')
    ensures Extends(l, l')
  {
  }

  /** One point only appends, its frequency always. */
  lemma StepExtends(s: State, pt: Point, p: Params, gainDb: real -> real)
    requires Step(s, pt, p, gainDb).Success?
    ensures Step(s, pt, p, gainDb).value.lists.frequency == s.lists.frequency + [pt.frequency]
    ensures Extends(s.lists, Step(s, pt, p, gainDb).value.lists)
  {
  }

  /** Running the sweep only appends: every list keeps what it had in front. */
  lemma {:induction false} RunExtends(s: State, points: seq<Point>, p: Params, gainDb: real -> real)
    requires Run(s, points, p, gainDb).Success?
    ensures Extends(s.lists, Run(s, points, p, gainDb).value.lists)
    decreases |points|
  {
    if points != [] {
      var s1 := Step(s, points[0], p, gainDb).value;
      StepExtends(s, points[0], p, gainDb);
      RunExtends(s1, points[1..], p, gainDb);
      ExtendsTransitive(s.lists, s1.lists, Run(s1, points[1..], p, gainDb).value.lists);
    }
  }

  /** The frequency list gains exactly the swept frequencies, failed
      measurements included. */
  lemma {:induction false} RunFrequencies(s: State, points: seq<Point>, p: Params, gainDb: real -> real)
    requires Run(s, points, p, gainDb).Success?
    ensures Run(s, points, p, gainDb).value.lists.frequency == s.lists.frequency + Frequencies(points)
    decreases |points|
  {
    if points == [] {
      assert s.lists.frequency + [] == s.lists.frequency;
    } else {
      var s1 := Step(s, points[0], p, gainDb).value;
      RunFrequencies(s1, points[1..], p, gainDb);
      var f, rest := s.lists.frequency, Frequencies(points[1..]);
      assert s1.lists.frequency == f + [points[0].frequency];
      assert Frequencies(points) == [points[0].frequency] + rest;
      assert (f + [points[0].frequency]) + rest == f + ([points[0].frequency] + rest);
    }
  }

  /** `row` is the dataset row of the successful point `pt`: its own
      frequency, RMS value and gain, and a plan for its frequency (rate
      under the ceiling, the plan identities, the 900 override at the
      ceiling). */
  ghost predicate RowOf(row: Row, pt: Point, p: Params, gainDb: real -> real) {
    && Truthy(pt.reading)
    && row.frequency == pt.frequency && row.rms == pt.reading.value && row.dBV == gainDb(row.rms)
    && row.fs == SamplingRate(pt.frequency, p)
    && row.oversamplingRatio * pt.frequency == row.fs
    && row.nPeriods * row.fs == row.nSamples as real * pt.frequency
    && (row.fs == p.fsMax ==> row.nSamples == ClippedSampleCount)
  }

  /** Row `k` of `l` carries the frequency and the plan recorded at sweep
      position `j`. */
  ghost predicate RowAt(l: Lists, k: int, j: int) {
    && 0 <= k < |l.rows|
    && 0 <= j < |l.frequency| && j < |l.fs| && j < |l.oversamplingRatio|
    && j < |l.nPeriods| && j < |l.nSamples|
    && l.rows[k].frequency == l.frequency[j] && l.rows[k].fs == l.fs[j]
    && l.rows[k].oversamplingRatio == l.oversamplingRatio[j]
    && l.rows[k].nPeriods == l.nPeriods[j] && l.rows[k].nSamples == l.nSamples[j]
  }

  lemma RowAtExtends(l: Lists, l': Lists, k: int, j: int)
    requires Extends(l, l') && RowAt(l, k, j)
    ensures RowAt(l', k, j)
  {
  }

  /** A successful point appends its own row. */
  lemma StepRow(s: State, pt: Point, p: Params, gainDb: real -> real)
    requires Step(s, pt, p, gainDb).Success? && Truthy(pt.reading)
    ensures var rows, rows' := s.lists.rows, Step(s, pt, p, gainDb).value.lists.rows;
      && |rows'| == |rows| + 1 && rows'[..|rows|] == rows
      && RowOf(rows'[|rows|], pt, p, gainDb)
  {
  }

  /** The row a successful point appends repeats the plan recorded for it at
      the end of the plan lists. */
  lemma StepRowAt(s: State, pt: Point, p: Params, gainDb: real -> real)
    requires Aligned(s.lists)
    requires Step(s, pt, p, gainDb).Success? && Truthy(pt.reading)
    ensures var l' := Step(s, pt, p, gainDb).value.lists;
      |l'.rows| == |s.lists.rows| + 1 && RowAt(l', |s.lists.rows|, |s.lists.frequency|)
  {
  }

  lemma StepAligned(s: State, pt: Point, p: Params, gainDb: real -> real)
    requires Aligned(s.lists) && Step(s, pt, p, gainDb).Success?
    ensures Aligned(Step(s, pt, p, gainDb).value.lists)
  {
  }

  /** The sweep positions, counted from `base`, of the successful points. */
  function Positions(points: seq<Point>, base: int): (ps: seq<int>)
    ensures |ps| == |Successful(points)|
    decreases |points|
  {
    if points == [] then []
    else if Truthy(points[0].reading) then [base] + Positions(points[1..], base + 1)
    else Positions(points[1..], base + 1)
  }

  /** The positions are strictly increasing, within the sweep, and position
      k holds successful point k. */
  lemma PositionsOfSuccessful(points: seq<Point>, base: int)
    ensures var ps := Positions(points, base);
      && (forall k :: 0 <= k < |ps| ==>
            && base <= ps[k] < base + |points| && points[ps[k] - base] == Successful(points)[k])
      && (forall k1, k2 :: 0 <= k1 < k2 < |ps| ==> ps[k1] < ps[k2])
  {
  }

  /** Rows from `n` on carry the plans recorded at the positions `ps`. */
  ghost predicate RowsAt(l: Lists, n: int, ps: seq<int>) {
    forall k :: 0 <= k < |ps| ==> RowAt(l, n + k, ps[k])
  }

  /** The inductive step of `RowsFromPlanLists`, on the lists alone: `l1`
      is `l` after the first point, `l'` the lists at the end. */
  lemma RowsFromPlanListsCons(l: Lists, l1: Lists, l': Lists, points: seq<Point>)
    requires points != [] && Extends(l1, l') && |l1.frequency| == |l.frequency| + 1
    requires Truthy(points[0].reading) ==>
      |l1.rows| == |l.rows| + 1 && RowAt(l1, |l.rows|, |l.frequency|)
    requires !Truthy(points[0].reading) ==> |l1.rows| == |l.rows|
    requires RowsAt(l', |l1.rows|, Positions(points[1..], |l1.frequency|))
    ensures RowsAt(l', |l.rows|, Positions(points, |l.frequency|))
  {
    var n, f := |l.rows|, |l.frequency|;
    var rest := Positions(points[1..], f + 1);
    if Truthy(points[0].reading) {
      assert Positions(points, f) == [f] + rest;
      RowAtExtends(l1, l', n, f);
      RowsAtShift(l', n, f, rest);
    } else {
      assert Positions(points, f) == rest;
    }
  }

  /** Row `n` at position `f` followed by rows from `n + 1` on at the
      positions `rest` are rows from `n` on at the positions `[f] + rest`. */
  lemma RowsAtShift(l: Lists, n: int, f: int, rest: seq<int>)
    requires RowAt(l, n, f) && RowsAt(l, n + 1, rest)
    ensures RowsAt(l, n, [f] + rest)
  {
  }

  /** Each row the sweep adds repeats the plan lists at the sweep position
      of its successful point. */
  lemma {:induction false} RowsFromPlanLists(s: State, points: seq<Point>, p: Params, gainDb: real -> real)
    requires Aligned(s.lists)
    requires Run(s, points, p, gainDb).Success?
    ensures RowsAt(Run(s, points, p, gainDb).value.lists, |s.lists.rows|, Positions(points, |s.lists.frequency|))
    decreases |points|
  {
    if points != [] {
      var s1 := Step(s, points[0], p, gainDb).value;
      var l' := Run(s1, points[1..], p, gainDb).value.lists;
      assert l' == Run(s, points, p, gainDb).value.lists;
      StepAligned(s, points[0], p, gainDb);
      RowsFromPlanLists(s1, points[1..], p, gainDb);
      StepExtends(s, points[0], p, gainDb);
      RunExtends(s1, points[1..], p, gainDb);
      if Truthy(points[0].reading) {
        StepRowAt(s, points[0], p, gainDb);
      }
      RowsFromPlanListsCons(s.lists, s1.lists, l', points);
    }
  }

  /** The intended dataset: one row per successful point, in sweep order,
      each built from that same point's frequency, plan, RMS and gain. */
  lemma {:induction false} RowsAreSuccessfulPoints(s: State, points: seq<Point>, p: Params, gainDb: real -> real)
    requires Run(s, points, p, gainDb).Success?
    ensures var rows := Run(s, points, p, gainDb).value.lists.rows;
      var good := Successful(points);
      && |rows| == |s.lists.rows| + |good|
      && rows[..|s.lists.rows|] == s.lists.rows
      && forall k :: 0 <= k < |good| ==> RowOf(rows[|s.lists.rows| + k], good[k], p, gainDb)
    decreases |points|
  {
    if points != [] {
      var s1 := Step(s, points[0], p, gainDb).value;
      var rows' := Run(s1, points[1..], p, gainDb).value.lists.rows;
      assert rows' == Run(s, points, p, gainDb).value.lists.rows;
      RowsAreSuccessfulPoints(s1, points[1..], p, gainDb);
      if Truthy(points[0].reading) {
        StepRow(s, points[0], p, gainDb);
        assert Successful(points) == [points[0]] + Successful(points[1..]);
        RowsOfSuccessfulShift(s.lists.rows, s1.lists.rows, rows', points[0], Successful(points[1..]), p, gainDb);
      } else {
        assert Successful(points) == Successful(points[1..]);
      }
    }
  }

  /** A row for `pt` followed by the rows of `good1` are the rows of
      `[pt] + good1`. */
  lemma RowsOfSuccessfulShift(rows: seq<Row>, rows1: seq<Row>, rows': seq<Row>, pt: Point, good1: seq<Point>,
                              p: Params, gainDb: real -> real)
    requires |rows1| == |rows| + 1 && rows1[..|rows|] == rows && RowOf(rows1[|rows|], pt, p, gainDb)
    requires |rows'| == |rows1| + |good1| && rows'[..|rows1|] == rows1
    requires forall k :: 0 <= k < |good1| ==> RowOf(rows'[|rows1| + k], good1[k], p, gainDb)
    ensures var good := [pt] + good1;
      && |rows'| == |rows| + |good| && rows'[..|rows|] == rows
      && forall k :: 0 <= k < |good| ==> RowOf(rows'[|rows| + k], good[k], p, gainDb)
  {
  }

  /** The whole sweep from the configured sample count: the frequency list
      is the swept frequencies; the RMS and gain lists and the dataset rows
      have one entry per successful point, matching them one for one; the
      zipped dataset is as long as the successful points. */
  lemma SweepDataset(nSamples: int, points: seq<Point>, p: Params, gainDb: real -> real)
    requires Run(Initial(nSamples), points, p, gainDb).Success?
    ensures var l := Run(Initial(nSamples), points, p, gainDb).value.lists;
      var good := Successful(points);
      && |l.frequency| == |points|
      && (forall k :: 0 <= k < |points| ==> l.frequency[k] == points[k].frequency)
      && |l.rms| == |good| && |l.rows| == |good| && |ZippedRows(l)| == |good|
      && forall k :: 0 <= k < |good| ==>
           && l.rms[k] == good[k].reading.value && l.dBV[k] == gainDb(good[k].reading.value)
           && RowOf(l.rows[k], good[k], p, gainDb) && RowAt(l, k, Positions(points, 0)[k])
  {
    var s0 := Initial(nSamples);
    IntendedRows(nSamples, points, p, gainDb);
    RunValid(s0, points, p, gainDb);
    RunFrequencies(s0, points, p, gainDb);
    RowsAreSuccessfulPoints(s0, points, p, gainDb);
    var l := Run(s0, points, p, gainDb).value.lists;
    assert l.frequency == Frequencies(points);
    FrequenciesAll(points);
    ListsFollowRows(l, Successful(points), p, gainDb);
  }

  lemma FrequenciesAll(points: seq<Point>)
    ensures forall k :: 0 <= k < |points| ==> Frequencies(points)[k] == points[k].frequency
  {
  }

  /** Rows that are those of `good`, and match the RMS and gain lists, make
      those lists the readings and gains of `good`. */
  lemma ListsFollowRows(l: Lists, good: seq<Point>, p: Params, gainDb: real -> real)
    requires Aligned(l) && RowsMatch(l) && |l.rows| == |good|
    requires forall k :: 0 <= k < |good| ==> RowOf(l.rows[k], good[k], p, gainDb)
    ensures forall k :: 0 <= k < |good| ==>
      && good[k].reading.Some?
      && l.rms[k] == good[k].reading.value && l.dBV[k] == gainDb(good[k].reading.value)
  {
  }

  /** The intended dataset of a whole sweep, row by row: row k is built
      from the k-th successful point, which sits at sweep position `js[k]`,
      the positions strictly increasing; the row carries that point's
      frequency, RMS value and gain, and the very plan recorded at that
      position (rate, oversampling ratio, period count, sample count), its
      sample count 900 when a point swept up to it had the ceiling rate and
      the configured count otherwise. */
  lemma IntendedRows(nSamples: int, points: seq<Point>, p: Params, gainDb: real -> real)
    requires Run(Initial(nSamples), points, p, gainDb).Success?
    ensures var l := Run(Initial(nSamples), points, p, gainDb).value.lists;
      var good, js := Successful(points), Positions(points, 0);
      && |l.rows| == |good| && |js| == |good|
      && (forall k1, k2 :: 0 <= k1 < k2 < |good| ==> js[k1] < js[k2])
      && forall k :: 0 <= k < |good| ==>
           && 0 <= js[k] < |points| && points[js[k]] == good[k]
           && RowOf(l.rows[k], good[k], p, gainDb) && RowAt(l, k, js[k])
           && l.rows[k].nSamples == (if PointHit(points, js[k], p) then ClippedSampleCount else nSamples)
  {
    var s0 := Initial(nSamples);
    RowsAreSuccessfulPoints(s0, points, p, gainDb);
    RowsFromPlanLists(s0, points, p, gainDb);
    PositionsOfSuccessful(points, 0);
    SweepCounts(nSamples, points, p, gainDb);
  }

  /** Some recorded rate at or before sweep position `j` is the ceiling. */
  ghost predicate CeilingHit(rates: seq<real>, j: int, p: Params) {
    exists i :: 0 <= i <= j && i < |rates| && rates[i] == p.fsMax
  }

  /** The recorded rates are those of the recorded frequencies, and every
      recorded sample count, like the configured one, is 900 once the
      ceiling has been hit and the count configured at the start before. */
  ghost predicate CountsFollow(s: State, p: Params, n0: int)
    requires Aligned(s.lists)
  {
    var l := s.lists;
    && (forall i :: 0 <= i < |l.fs| ==> l.fs[i] == SamplingRate(l.frequency[i], p))
    && s.nSamples == (if CeilingHit(l.fs, |l.fs| - 1, p) then ClippedSampleCount else n0)
    && forall j :: 0 <= j < |l.fs| ==>
         l.nSamples[j] == (if CeilingHit(l.fs, j, p) then ClippedSampleCount else n0)
  }

  lemma StepCounts(s: State, pt: Point, p: Params, gainDb: real -> real, n0: int)
    requires Aligned(s.lists) && CountsFollow(s, p, n0)
    requires Step(s, pt, p, gainDb).Success?
    ensures Aligned(Step(s, pt, p, gainDb).value.lists)
    ensures CountsFollow(Step(s, pt, p, gainDb).value, p, n0)
  {
    var s' := Step(s, pt, p, gainDb).value;
    var l, l' := s.lists, s'.lists;
    var n := |l.fs|;
    StepAligned(s, pt, p, gainDb);
    forall j | 0 <= j < n
      ensures CeilingHit(l'.fs, j, p) <==> CeilingHit(l.fs, j, p)
    {
      if CeilingHit(l'.fs, j, p) {
        var i :| 0 <= i <= j && i < |l'.fs| && l'.fs[i] == p.fsMax;
        assert l.fs[i] == l'.fs[i];
      }
      if CeilingHit(l.fs, j, p) {
        var i :| 0 <= i <= j && i < |l.fs| && l.fs[i] == p.fsMax;
        assert l'.fs[i] == l.fs[i];
      }
    }
    if l'.fs[n] == p.fsMax {
      assert CeilingHit(l'.fs, n, p);
    } else if CeilingHit(l'.fs, n, p) {
      var i :| 0 <= i <= n && i < |l'.fs| && l'.fs[i] == p.fsMax;
      assert CeilingHit(l.fs, n - 1, p) by { assert l.fs[i] == l'.fs[i]; }
    }
  }

  lemma {:induction false} RunCounts(s: State, points: seq<Point>, p: Params, gainDb: real -> real, n0: int)
    requires Aligned(s.lists) && CountsFollow(s, p, n0)
    requires Run(s, points, p, gainDb).Success?
    ensures Aligned(Run(s, points, p, gainDb).value.lists)
    ensures CountsFollow(Run(s, points, p, gainDb).value, p, n0)
    decreases |points|
  {
    if points != [] {
      StepCounts(s, points[0], p, gainDb, n0);
      RunCounts(Step(s, points[0], p, gainDb).value, points[1..], p, gainDb, n0);
    }
  }

  /** Some swept point at or before position `j` has the ceiling rate. */
  ghost predicate PointHit(points: seq<Point>, j: int, p: Params) {
    exists i :: 0 <= i <= j && i < |points| && SamplingRate(points[i].frequency, p) == p.fsMax
  }

  /** The sample counts of a whole sweep: the count recorded at position
      `j`, and the count left in the configuration at the end, are 900 when
      a point swept so far has the ceiling rate and the count configured at
      the start otherwise. */
  lemma SweepCounts(nSamples: int, points: seq<Point>, p: Params, gainDb: real -> real)
    requires Run(Initial(nSamples), points, p, gainDb).Success?
    ensures var s' := Run(Initial(nSamples), points, p, gainDb).value;
      && |s'.lists.nSamples| == |points|
      && s'.nSamples == (if PointHit(points, |points| - 1, p) then ClippedSampleCount else nSamples)
      && forall j :: 0 <= j < |points| ==>
           s'.lists.nSamples[j] == (if PointHit(points, j, p) then ClippedSampleCount else nSamples)
  {
    var s0 := Initial(nSamples);
    RunCounts(s0, points, p, gainDb, nSamples);
    RunValid(s0, points, p, gainDb);
    RunFrequencies(s0, points, p, gainDb);
    var l := Run(s0, points, p, gainDb).value.lists;
    assert l.frequency == Frequencies(points);
    FrequenciesAll(points);
    HitsAgree(l.fs, points, p);
  }

  /** Rates that are those of the swept points hit the ceiling where the
      points do. */
  lemma HitsAgree(rates: seq<real>, points: seq<Point>, p: Params)
    requires |rates| == |points|
    requires forall i :: 0 <= i < |points| ==> rates[i] == SamplingRate(points[i].frequency, p)
    ensures forall j :: CeilingHit(rates, j, p) <==> PointHit(points, j, p)
  {
  }

  /** The dataset as written is wrong once a point fails: with a failed
      point at 100 Hz followed by a reading of 1.0 at 200 Hz, its only row
      claims 1.0 was measured at 100 Hz, while the intended row says 200 Hz. */
  lemma ZippedRowsMisaligned()
    ensures var p := Params(10.0, 100000.0);
      var points := [Point(100.0, None), Point(200.0, Some(1.0))];
      var l := Run(Initial(1000), points, p, x => x).value.lists;
      && |ZippedRows(l)| == 1 && |l.rows| == 1
      && ZippedRows(l)[0].frequency == 100.0 && ZippedRows(l)[0].rms == 1.0
      && l.rows[0].frequency == 200.0 && l.rows[0].rms == 1.0
  {
  }
}

=== FILE: SweepConfig.dfy ===
/** The section map of `SweepConfig` (audio/config/sweep.py).

    A sweep configuration is a dictionary whose "rigol", "nidaq",
    "sampling" and "plot" entries hold the four sections. A section exists
    when its entry is present and is an object. `set_X(override)` resets
    section X to an empty object when it exists or when `override` is
    true, then returns the section as it now reads.
 */
module SweepConfig {
  import opened Wrappers
  import opened Json

  /** `SweepConfigEnum`. */
  datatype Section = Rigol | NiDaq | Sampling | Plot

  /** The dictionary key holding each section. */
  function Key(s: Section): string {
    match s
    case Rigol => "rigol"
    case NiDaq => "nidaq"
    case Sampling => "sampling"
    case Plot => "plot"
  }

  type Config = Dict

  /** The `rigol` / `nidaq` / `sampling` / `plot` properties. */
  function Get(c: Config, s: Section): (r: Option<Dict>)
    ensures r.Some? <==> Key(s) in c && c[Key(s)].Object?
    ensures r.Some? ==> c[Key(s)] == Object(r.value)
  {
    GetObject(c, Key(s))
  }

  /** Each accessor reads its own key and nothing else. */
  lemma GetReadsOnlyItsKey(c: Config, c': Config, s: Section)
    requires Key(s) in c <==> Key(s) in c'
    requires Key(s) in c ==> c[Key(s)] == c'[Key(s)]
    ensures Get(c, s) == Get(c', s)
  {
  }

  /** `exists(section)`. */
  predicate Exists(c: Config, s: Section): (b: bool)
    ensures b <==> Key(s) in c && c[Key(s)].Object?
  {
    Get(c, s).Some?
  }

  /** `set_X(override)`: the new configuration and the section returned. */
  function Set(c: Config, s: Section, override: bool): (r: (Config, Option<Dict>))
    // no other entry changes
    ensures r.0.Keys == c.Keys + (if Exists(c, s) || override then {Key(s)} else {})
    // the section is reset when it exists or on override, and left alone otherwise
    ensures Exists(c, s) || override ==> r.0[Key(s)] == Object(map[]) && r.1 == Some(map[])
    ensures !Exists(c, s) && !override ==> r.0 == c && r.1 == None
    ensures forall k :: k in c && k != Key(s) ==> r.0[k] == c[k]
    // what is returned is the section as it now reads
    ensures r.1 == Get(r.0, s)
  {
    var c' := if Exists(c, s) || override then c[Key(s) := Object(map[])] else c;
    (c', Get(c', s))
  }

  /** Setting a section twice is setting it once. */
  lemma SetIdempotent(c: Config, s: Section, override: bool)
    ensures Set(Set(c, s, override).0, s, override) == Set(c, s, override)
  {
    var once := Set(c, s, override).0;
    if Exists(c, s) || override {
      assert once[Key(s) := Object(map[])] == once;
    }
  }

  /** Setting different sections commutes. */
  lemma SetCommutes(c: Config, s: Section, t: Section, o1: bool, o2: bool)
    requires s != t
    ensures Set(Set(c, s, o1).0, t, o2).0 == Set(Set(c, t, o2).0, s, o1).0
  {
  }

  /** `SweepConfig.from_file` on the decoded file: null exactly when the
      file decoded to null. */
  function FromFile(data: Option<Dict>): (r: Option<Config>)
    ensures r.None? <==> data.None?
    ensures r.Some? ==> r.value == data.value
  {
    match data
    case None => None
    case Some(d) => Some(d)
  }
}

=== FILE: Timer.dfy ===
/** The stopwatch of audio/utility/timer.py.

    A timer is idle (no start time) or running (a start time). Starting a
    running timer or stopping an idle one raises `TimerError`. The clock
    (`time.perf_counter()`) is the `now` parameter of each operation;
    printing the report is not modelled.
 */
module Timer {
  import opened Wrappers

  const RunningMessage: string := "Timer is running. Use .stop() to stop it"
  const NotRunningMessage: string := "Timer is not running. Use start() to start it"

  datatype Timer = Timer(startTime: Option<real>, message: Option<string>) {
    predicate Running() { startTime.Some? }
  }

  /** `Timer_Message`: the elapsed time and the message of one measurement. */
  datatype TimerMessage = TimerMessage(elapsed: real, message: Option<string>)

  datatype TimerError = TimerError(reason: string)

  /** `Timer(message)`: idle, holding the given message. */
  function New(message: Option<string>): (t: Timer)
    ensures !t.Running() && t.message == message
  {
    Timer(None, message)
  }

  /** `start(message)` at clock reading `now`. */
  function Start(t: Timer, message: Option<string>, now: real): (r: Result<Timer, TimerError>)
    ensures t.Running() <==> r.Failure?
    ensures r.Failure? ==> r.error == TimerError(RunningMessage)
    ensures r.Success? ==>
      && r.value.Running() && r.value.startTime == Some(now)
      && r.value.message == (if message.Some? then message else t.message)
  {
    if t.startTime.Some? then Failure(TimerError(RunningMessage))
    else Success(Timer(Some(now), if message.Some? then message else t.message))
  }

  /** `stop()` at clock reading `now`: reports the time since the start and
      the message held so far, and leaves the timer idle with an empty
      message. */
  function Stop(t: Timer, now: real): (r: Result<(Timer, TimerMessage), TimerError>)
    ensures !t.Running() <==> r.Failure?
    ensures r.Failure? ==> r.error == TimerError(NotRunningMessage)
    ensures r.Success? ==>
      && r.value.0 == Timer(None, Some(""))
      && r.value.1.message == t.message
      && r.value.1.elapsed + t.startTime.value == now
  {
    match t.startTime
    case None => Failure(TimerError(NotRunningMessage))
    case Some(start) => Success((Timer(None, Some("")), TimerMessage(now - start, t.message)))
  }

  /** An operation on a timer, with the clock reading at which it happens. */
  datatype Op = StartOp(message: Option<string>, at: real) | StopOp(at: real)

  /** Applying operations in order; the first `TimerError` ends the trace.
      On success, the reports of every stop, in order. */
  function Trace(t: Timer, ops: seq<Op>): Result<(Timer, seq<TimerMessage>), TimerError>
    decreases |ops|
  {
    if ops == [] then Success((t, []))
    else match ops[0]
      case StartOp(m, at) =>
        (match Start(t, m, at)
         case Failure(e) => Failure(e)
         case Success(t1) => Trace(t1, ops[1..]))
      case StopOp(at) =>
        (match Stop(t, at)
         case Failure(e) => Failure(e)
         case Success(res) =>
           match Trace(res.0, ops[1..])
           case Failure(e) => Failure(e)
           case Success(rest) => Success((rest.0, [res.1] + rest.1)))
  }

  /** Starts and stops alternate, the first being a start when the timer is idle. */
  predicate Alternating(ops: seq<Op>, running: bool)
    decreases |ops|
  {
    ops == [] || (ops[0].StartOp? == !running && Alternating(ops[1..], !running))
  }

  /** A trace succeeds exactly when its operations alternate, and then the
      timer ends running iff the trace has an odd number of operations
      (counted from an idle timer). */
  lemma {:induction false} TraceSucceedsIffAlternating(t: Timer, ops: seq<Op>)
    ensures Trace(t, ops).Success? <==> Alternating(ops, t.Running())
    ensures Trace(t, ops).Success? ==>
      Trace(t, ops).value.0.Running() == (t.Running() != (|ops| % 2 == 1))
    decreases |ops|
  {
    if ops != [] {
      match ops[0]
      case StartOp(m, at) =>
        if !t.Running() {
          TraceSucceedsIffAlternating(Start(t, m, at).value, ops[1..]);
        }
      case StopOp(at) =>
        if t.Running() {
          TraceSucceedsIffAlternating(Stop(t, at).value.0, ops[1..]);
        }
    }
  }

  /** From an idle timer, alternation means: operation i is a start exactly
      when i is even. */
  lemma {:induction false} AlternatingFromIdle(ops: seq<Op>, running: bool)
    ensures Alternating(ops, running) <==>
      forall i :: 0 <= i < |ops| ==> (ops[i].StartOp? <==> (i % 2 == 0) != running)
    decreases |ops|
  {
    if ops != [] {
      AlternatingFromIdle(ops[1..], !running);
      if forall i :: 0 <= i < |ops| ==> (ops[i].StartOp? <==> (i % 2 == 0) != running) {
        forall i | 0 <= i < |ops[1..]|
          ensures ops[1..][i].StartOp? <==> (i % 2 == 0) != !running
        {
          assert ops[1..][i] == ops[i + 1];
        }
      }
      if Alternating(ops, running) {
        forall i | 0 <= i < |ops|
          ensures ops[i].StartOp? <==> (i % 2 == 0) != running
        {
          if i > 0 {
            assert ops[i] == ops[1..][i - 1];
          }
        }
      }
    }
  }

  /** The clock readings of `ops` never go backwards, and none is earlier
      than the timer's start. */
  ghost predicate Monotone(t: Timer, ops: seq<Op>) {
    && (forall i, j :: 0 <= i < j < |ops| ==> ops[i].at <= ops[j].at)
    && (t.Running() && ops != [] ==> t.startTime.value <= ops[0].at)
  }

  /** With a clock that never goes backwards, every reported elapsed time is
      non-negative. */
  lemma {:induction false} ElapsedNonNegative(t: Timer, ops: seq<Op>)
    requires Monotone(t, ops)
    requires Trace(t, ops).Success?
    ensures forall k :: 0 <= k < |Trace(t, ops).value.1| ==> Trace(t, ops).value.1[k].elapsed >= 0.0
    decreases |ops|
  {
    if ops != [] {
      var rest := ops[1..];
      assert forall i, j :: 0 <= i < j < |rest| ==> rest[i].at <= rest[j].at by {
        forall i, j | 0 <= i < j < |rest| ensures rest[i].at <= rest[j].at {
          assert rest[i] == ops[i + 1] && rest[j] == ops[j + 1];
        }
      }
      match ops[0]
      case StartOp(m, at) =>
        var t1 := Start(t, m, at).value;
        if rest != [] {
          assert rest[0] == ops[1];
        }
        ElapsedNonNegative(t1, rest);
      case StopOp(at) =>
        var res := Stop(t, at).value;
        ElapsedNonNegative(res.0, rest);
    }
  }

  /** `stop` clears the message: a later `start()` without a message
      reports "" rather than the message the timer was created with. */
  lemma MessageClearedByStop(created: Option<string>, t0: real, t1: real, t2: real, t3: real)
    ensures Trace(New(created), [StartOp(None, t0), StopOp(t1), StartOp(None, t2), StopOp(t3)]).Success?
    ensures var reports := Trace(New(created), [StartOp(None, t0), StopOp(t1), StartOp(None, t2), StopOp(t3)]).value.1;
      |reports| == 2 && reports[0].message == created && reports[1].message == Some("")
  {
    var ops := [StartOp(None, t0), StopOp(t1), StartOp(None, t2), StopOp(t3)];
    var a := Timer(Some(t0), created);
    var b := Timer(None, Some(""));
    var c := Timer(Some(t2), Some(""));
    var m1 := TimerMessage(t1 - t0, created);
    var m2 := TimerMessage(t3 - t2, Some(""));
    assert ops[3..] == [StopOp(t3)] && ops[3..][1..] == [];
    assert Stop(c, t3) == Success((b, m2));
    assert Trace(b, ops[3..][1..]) == Success((b, []));
    assert [m2] + [] == [m2];
    assert Trace(c, ops[3..]) == Success((b, [m2]));
    assert ops[2..][1..] == ops[3..];
    assert Trace(b, ops[2..]) == Success((b, [m2]));
    assert ops[1..][1..] == ops[2..];
    assert Stop(a, t1) == Success((b, m1));
    assert [m1] + [m2] == [m1, m2];
    assert Trace(a, ops[1..]) == Success((b, [m1, m2]));
    assert Trace(New(created), ops) == Success((b, [m1, m2]));
  }

  /** The message the `timer` and `timeit` decorators start their timer
      with: the given one when it is a non-empty string, else the name of
      the decorated function. */
  function DecoratorMessage(given: Option<string>, name: string): (m: string)
    ensures given.Some? && given.value != "" ==> m == given.value
    ensures given.None? || given.value == "" ==> m == name
  {
    if given.Some? && given.value != "" then given.value else name
  }

  /** A call through `timer` / `timeit`: a fresh timer is started at `t0`,
      `f(x)` is evaluated, the timer is stopped at `t1`. The result is
      passed through unchanged and the timer never raises. */
  function Timed<A, R>(f: A -> R, x: A, name: string, given: Option<string>, t0: real, t1: real)
    : (r: Result<(R, TimerMessage), TimerError>)
    ensures r.Success?
    ensures r.value.0 == f(x)
    ensures r.value.1.message == Some(DecoratorMessage(given, name))
    ensures r.value.1.elapsed == t1 - t0
  {
    var timer := New(None);
    match Start(timer, Some(DecoratorMessage(given, name)), t0)
    case Failure(e) => Failure(e)
    case Success(running) =>
      var ret := f(x);
      match Stop(running, t1)
      case Failure(e) => Failure(e)
      case Success(res) => Success((ret, res.1))
  }
}

=== FILE: Wrappers.dfy ===
/** Failure-carrying values shared by every module of the model.
    - Option<T> stands for Python's `Optional[T]` (None or a value).
    - Result<T, E> stands for "returns a T or raises E".
 */
module Wrappers {

  datatype Option<+T> = None | Some(value: T)

  datatype Result<+T, +E> = Success(value: T) | Failure(error: E)
}
